=== FILE: README.md ===
# Wallet account synchronisation, registry and ordering — a Dafny model

This project models the core of a Stellar/TFT wallet front-end in Dafny 4.11 and proves properties of
that model. The core has three parts.

- **Account synchronisation** (`src/services/AccountService.js`), covered by modules `AccountService`,
  `BalanceFilter`, `LockedSort`, `LockedAggregation` and `UnlockRoutine`.
  - `fetchAccount` derives a keypair and loads the ledger account. If the account is `Not Found`,
    it activates it by migration (production) or the faucet.
  - It checks that the account holds a TFT balance. If not, it asks for the TFT trust line and
    retries; it refuses once `retry` exceeds 3.
  - It then fetches the escrow ("locked") records and starts the background unlock routine. It sums
    the locked amounts per asset code and reads the vesting balance.
  - `mapAccount` assembles the snapshot. It keeps the configured currencies the account holds and
    sorts the escrow records by the `minTime` of their unlock transaction, in place.
  - A failed activation yields a degraded snapshot (`error: true`), except for the zero-balance
    error, which is re-thrown.
  - Outside calls are oracles. The `Env` datatype holds the configuration, the key derivation, one
    outcome per retry round for each call a round repeats (load, activation, reload, trust line),
    and a single outcome for the escrow fetch and the vesting check. `FetchAccount` returns the
    result and the calls it made, in order.
- **Account registry** (`src/store/modules/Accounts.js`, module `Accounts`).
  - `AccountStore` is a class with the store's two fields: `accounts` (a sequence of `Account`
    objects) and `accountThombstones` (names of accounts still being created).
  - Each mutation is a method that reassigns those fields.
  - The `nextAppAcountIndex` getter is a function reading the store.
- **Display ordering** (`src/views/Home/Home.js`, module `Home`).
  - The `accounts` getter copies the registry list into an array and sorts it by `position` with an
    insertion sort.
  - The setter writes each account's `position` in place, then commits the list.

`LedgerTypes` holds the shared value types. `Seqs` holds the generic `filter`, `indexOf` and
`lastIndexOf` helpers.

## Model

| member | source | states |
|---|---|---|
| BalanceFilter.FindBalance | src/services/AccountService.js:39 | `None` exactly when no balance carries the code; otherwise the first balance that does |
| BalanceFilter.FilterBalances | src/services/AccountService.js:38-40 | at most one balance is shown per configured code |
| BalanceFilter.FilterBalancesSound | src/services/AccountService.js:38-40 | every shown balance has a configured code, is the first ledger balance with that code, and comes from the ledger response |
| BalanceFilter.FilterBalancesComplete | src/services/AccountService.js:38-40 | every configured code the account holds is shown, with its first ledger balance |
| BalanceFilter.FilterBalancesInConfigOrder | src/services/AccountService.js:38-40 | with distinct configured codes (object keys), shown balances follow configuration order strictly, so no code appears twice |
| BalanceFilter.FilterBalancesNoneHeld | src/services/AccountService.js:38-40 | when the account holds none of the configured codes, nothing is shown |
| BalanceFilter.FilterBalancesSingle | src/services/AccountService.js:38-40 | an account holding one configured asset shows exactly that balance |
| BalanceFilter.FilterBalancesOfNothing | src/services/AccountService.js:147-151 | an account response without balances (the degraded one) shows none |
| LockedSort.CompareLocked | src/services/AccountService.js:46-60 | 0 whenever either record lacks an unlock transaction; otherwise -1, 0 or 1 by the sign of the `minTime` comparison |
| LockedSort.SortLockedPermutes | src/services/AccountService.js:46 | the sorted records are a permutation of the input |
| LockedSort.SortLockedOrdered | src/services/AccountService.js:46-60 | when every record has an unlock transaction, the result is non-decreasing by `minTime` |
| LockedSort.Insert | src/services/AccountService.js:46-60 | inserting a record into a sorted list adds exactly one element, the record itself |
| LockedSort.SortLocked | src/services/AccountService.js:46-60 | the sorted list has as many records as the input |
| LockedSort.InsertInPlace | src/services/AccountService.js:46 | after the call, `a[..i+1]` equals `Insert` of the old `a[..i]` and the old `a[i]`, and `a[i+1..]` is unchanged |
| LockedSort.SortLockedInPlace | src/services/AccountService.js:46 | the in-place sort leaves the array equal to `SortLocked` of its old contents |
| LockedAggregation.AggregateLockedBalances | src/services/AccountService.js:185-192 | the dictionary built record by record has exactly the codes of the records as keys, each mapped to the sum of its amounts; the falsy-zero `else` branch still gives the sum |
| LockedAggregation.TotalsAppend | src/services/AccountService.js:186-191 | one more record changes only its own code's entry, by its amount, and creates the entry when absent |
| LockedAggregation.NoRecordsNoTotals | src/services/AccountService.js:185 | no records give the empty dictionary |
| LockedAggregation.LockedTotalsIgnoreOrder | src/services/AccountService.js:185-192 | sorting the records (as `mapAccount` does to the same array) does not change the totals |
| UnlockRoutine.HasUnlockHash | src/services/AccountService.js:74 | a record counts as having an unlock hash exactly when the hash is present and non-empty, as JavaScript truthiness has it |
| UnlockRoutine.Due | src/services/AccountService.js:87 | an unlock transaction is due exactly when its `minTime` in seconds lies strictly before the current time in milliseconds |
| UnlockRoutine.ProcessRecord | src/services/AccountService.js:72-118 | with a hash, a fetched and due transaction is submitted exactly when the ledger accepts it and halts the routine exactly when it rejects it; a record whose fetch fails is left exactly as it was; a record whose fetch fails or whose transaction is not due keeps its hash and gets no transfer; a fetched transaction stays on every record that was not submitted; a submitted record has hash and transaction cleared and then gets a transfer attempt; a record without a hash is unchanged and gets a transfer attempt; an attempted transfer is reported as done exactly when the ledger accepts it, and a failed transfer never halts |
| UnlockRoutine.ProcessInPlace | src/services/AccountService.js:72-118 | the loop body on `records[i]` leaves that record and returns the step exactly as `ProcessRecord` of the old record says, and changes no other record |
| UnlockRoutine.FirstHalt | src/services/AccountService.js:96 | the index of the first record whose submit fails (or the length): no earlier record halts, and that record does |
| UnlockRoutine.LockedTokenSubRoutine | src/services/AccountService.js:70-119 | the loop processes the records in order, updating each one in place as `ProcessRecord` says; it stops right after the first failed submit and leaves the remaining records untouched |
| UnlockRoutine.SecondPassNeverResubmits | src/services/AccountService.js:97-102 | a record whose unlock was submitted is never submitted again; a later pass only retries its transfer |
| AccountService.ValidateAndFixAccountResponse | src/services/AccountService.js:267-273 | valid exactly when some balance has code `TFT`; the trust line is requested exactly when it is not; a throwing trust-line call becomes the error |
| AccountService.GenerateError | src/services/AccountService.js:252-261 | the zero-balance message exactly for a response error equal to it or containing the "code: 204" text; the generic generation message otherwise |
| AccountService.GenerateErrorAsWritten | src/services/AccountService.js:247-261 | as written, the catch block ends in a TypeError exactly when the error lacks `response`, `data` or `data.error`, and otherwise throws what the corrected mapping gives |
| AccountService.GenerateErrorAsWrittenWithoutResponse | src/services/AccountService.js:247-251 | as written, an activation error without `response` escapes as a TypeError instead of the generic message |
| AccountService.GenerateErrorVersionsAgreeForFetch | src/services/AccountService.js:141-145 | both versions agree on whether the message is the zero-balance text, so the outcome of `fetchAccount` is the same |
| AccountService.GenerateAndFetchAccount | src/services/AccountService.js:235-265 | the first call is an activation attempt, by migration in production and by the faucet otherwise; a failed attempt gives the error of the corrected mapping `GenerateError`; otherwise the result is the reload, whose error propagates unchanged |
| AccountService.MapAccount | src/services/AccountService.js:20-65 | id, name, tags, index, position, keypair, seed phrase, `isConverted`, totals, vested balance and error are passed through; the balances are `FilterBalances` of the response, so they have configured codes, come from the response, include every held configured code and follow configuration order; the escrow list is `SortLocked` of the input, a permutation of it and sorted by `minTime` when all records are timed |
| AccountService.Degraded | src/services/AccountService.js:147-164 | the degraded snapshot: id is the derived public key, with no balances, no escrow records, no totals, vested balance 0 and `error` set; the caller's name, tags, index, position, conversion flag and seed phrase, and the derived keypair, are carried over |
| AccountService.Resolve | src/services/AccountService.js:128-166 | the load step makes no derivation or trust-line call; a degraded outcome is the degraded snapshot |
| AccountService.ReadVesting | src/services/AccountService.js:194-197 | no vesting account gives 0 and no stream; a vesting account gives its TFT amount and opens the stream; a vesting account without TFT throws the TypeError of reading `.balance` of undefined; a `checkVesting` error propagates |
| AccountService.SyncedSnapshot | src/services/AccountService.js:219-232 | the snapshot of a synced account has `error` unset, the loaded account's id, the balances `FilterBalances` shows for it, the given vested balance, the per-code totals of the escrow records, and those records as `SortLocked` orders them (non-decreasing by `minTime` when every record has an unlock transaction); the caller's name, tags, index, position, conversion flag and seed phrase, and the derived keypair, are carried over |
| AccountService.Complete | src/services/AccountService.js:182-232 | an escrow fetch error ends the call with that error after the fetch alone; otherwise the calls start with the escrow fetch, the unlock routine and the vesting check, a vesting error (or a vesting account without TFT) ends the call with that error, and else the snapshot has `error` unset, the loaded account's id and filtered balances, the vested balance `ReadVesting` gives, the totals of the fetched records and a permutation of them — in full, exactly `SyncedSnapshot` of the fetched records and that vested balance, so sorted escrow records and the caller's own fields — with the stream opened exactly when a vesting account exists |
| AccountService.FetchAccount | src/services/AccountService.js:121-233 | with `retry > 3` it fails with "too many retries" and makes no call; otherwise its first calls are key derivation and the account load |
| AccountService.RoundsBounded | src/services/AccountService.js:121-125 | a call at `retry` makes at most `4 - retry` rounds (key derivations) and at most one trust-line request per round |
| AccountService.LoadErrorIsFatal | src/services/AccountService.js:136-138 | a load error other than exactly `Not Found` fails with the fetch message right after the load: no activation, no retry |
| AccountService.ZeroBalanceIsRethrown | src/services/AccountService.js:143-145 | the zero-balance activation error reaches the caller unchanged |
| AccountService.ActivationFailureDegrades | src/services/AccountService.js:147-164 | any other activation failure returns the degraded snapshot without a trust-line request, escrow fetch or vesting check |
| AccountService.MissingTrustLineExhaustsRetries | src/services/AccountService.js:168-180 | when the ledger never shows the TFT trust line, every round asks for it and the call fails with "too many retries" after exactly `4 - retry` rounds |
| AccountService.ActivatedWithoutTrustLineRetries | src/services/AccountService.js:140-180 | a freshly activated account without the trust line makes the calls load, activate, reload, trust line, then repeats the whole call with `retry + 1` |
| AccountService.SnapshotShape | src/services/AccountService.js:147-232 | every snapshot returned is either the degraded one, or carries the fetched escrow records (reordered) with their per-code totals |
| AccountService.PlainAccountSnapshot | src/services/AccountService.js:121-232 | an account holding 10 TFT, with no escrow records and no vesting account, syncs in one round to a snapshot showing just that balance |
| Seqs.FilterConcat | src/store/modules/Accounts.js:89-109 | filtering distributes over concatenation, so the entries a removal keeps stay in their original order |
| Accounts.FindIndexById | src/store/modules/Accounts.js:81 | -1 exactly when no account has the id; otherwise the first index with it |
| Accounts.Upsert | src/store/modules/Accounts.js:81-87 | after `addAccount` the account is in the list; the length grows by one exactly when its id was new |
| Accounts.UpsertNewId | src/store/modules/Accounts.js:81-86 | an account with a new id is appended; all existing entries stay where they were |
| Accounts.UpsertKnownId | src/store/modules/Accounts.js:81-87 | an account whose id is present replaces the first entry with that id, in place; length and all other entries are unchanged |
| Accounts.UpsertKeepsIdsUnique | src/store/modules/Accounts.js:80-88 | if ids are unique before `addAccount`, they are unique after it |
| Accounts.UpsertNewAppAccount | src/store/modules/Accounts.js:116-125 | adding an app-tagged account with a new id raises the next app index by one |
| Accounts.AppSplit | src/store/modules/Accounts.js:116-125 | the next app index plus the number of accounts `removeAppAccounts` keeps is the number of accounts |
| Accounts.NoAppAccountsAfterRemoval | src/store/modules/Accounts.js:92-96 | after `removeAppAccounts` no app account is left, so the next app index is 0 |
| Accounts.ImportedAccountSurvives | src/store/modules/Accounts.js:97-101 | as written, `removeImportedAccounts` keeps an account tagged only `'imported'`, which the intended filter drops |
| Accounts.WithoutAccount | src/store/modules/Accounts.js:89-91 | what `removeAccount` keeps: every entry not identical to the given object, and only those |
| Accounts.AppAccounts | src/store/modules/Accounts.js:119-121 | the accounts tagged `'app'`, and only those |
| Accounts.NonAppAccounts | src/store/modules/Accounts.js:92-96 | what `removeAppAccounts` keeps: every account without the `'app'` tag, and only those |
| Accounts.NonImportedAccounts | src/store/modules/Accounts.js:97-101 | every account without the `'imported'` tag, and only those |
| Accounts.WithoutName | src/store/modules/Accounts.js:105-109 | what `removeAccountThombstone` keeps: every name different from the given one, and only those |
| Accounts.AccountStore.constructor | src/store/modules/Accounts.js:7-10 | both lists start empty |
| Accounts.AccountStore.NextAppAccountIndex | src/store/modules/Accounts.js:116-125 | the number of accounts minus those without the `'app'` tag, at most the number of accounts |
| Accounts.AccountStore.AddAccount | src/store/modules/Accounts.js:80-88 | the new list is the upsert of the account; tombstones unchanged |
| Accounts.AccountStore.RemoveAccount | src/store/modules/Accounts.js:89-91 | the new list drops exactly the entries identical to the account; tombstones unchanged |
| Accounts.AccountStore.RemoveAppAccounts | src/store/modules/Accounts.js:92-96 | the new list keeps exactly the non-app accounts; tombstones unchanged |
| Accounts.AccountStore.RemoveImportedAccounts | src/store/modules/Accounts.js:97-101 | as written, the same result as `removeAppAccounts` |
| Accounts.AccountStore.RemoveImportedAccountsCorrected | src/store/modules/Accounts.js:97-101 | the new list keeps exactly the accounts not tagged `'imported'` |
| Accounts.AccountStore.AddAccountThombstone | src/store/modules/Accounts.js:102-104 | appends the name; accounts unchanged |
| Accounts.AccountStore.RemoveAccountThombstone | src/store/modules/Accounts.js:105-109 | drops exactly the equal names; accounts unchanged |
| Accounts.AccountStore.SetAccounts | src/store/modules/Accounts.js:110-112 | replaces the account list wholesale; tombstones unchanged |
| Home.InsertByPosition | src/views/Home/Home.js:18-20 | one insertion pass keeps the array a permutation and extends the prefix sorted by position |
| Home.GetAccounts | src/views/Home/Home.js:16-21 | the getter returns a permutation of the registry's accounts, non-decreasing by position, and modifies nothing (the registry list included) |
| Home.SetAccounts | src/views/Home/Home.js:23-28 | each listed account's position becomes its (last) list index; other fields and the tombstones are unchanged; the registry list becomes exactly the given list |
| Home.SortedByIndexIsIdentity | src/views/Home/Home.js:16-28 | a permutation of a list whose positions are its indices, sorted by position, is that list |
| Home.SetThenGet | src/views/Home/Home.js:16-28 | the setter followed by the getter returns a list of distinct accounts in the same order |

## Left out

- Key derivation, BIP-39 entropy, `loadAccount`, `migrateAccount`, `addTrustLine`, `getLockedBalances`, `checkVesting`, `fetchUnlockTransaction`, `transferLockedTokens` and `submitTransaction` are foreign library calls. They appear only as oracles in `Env` and `Services`.
- The snapshot's `seed` (`mnemonicToEntropy`) and the keypair's secret are not modelled. A mnemonic that fails to decode is not modelled either.
- The faucet request is a synchronous `XMLHttpRequest`. It is raw I/O, and only its success or failure is modelled, through the activation oracle.
- The vesting stream subscription is event-driven. The model records only that it is started (`SubscribeVesting`). Its callback looks up the account by id and sets `vestedBalance`; it is not modelled.
- `lockedTokenSubRoutine` is started without `await` and walks the same array that `mapAccount` then sorts in place. The model verifies the routine and the sort separately. The order in which their steps interleave, and the aliasing between them, are not captured.
- Asset amounts and balances are strings parsed with `Number(...)` and summed as floating point. They are modelled as integers, so NaN, rounding and the falsy NaN are not captured.
- `LockedSort.CompareLocked`: `minTime` is modelled as an integer. If the library hands it over as a string, the source compares it lexicographically, and the model does not capture that.
- `LockedSort.SortLockedInPlace`: when some records lack an unlock transaction, the comparator is not a consistent order. The engine's result is then implementation-defined. The model fixes one stable insertion sort, and claims of it only a permutation, plus ordering when all records are timed.
- AccountService.GenerateAndFetchAccount: applies the corrected `GenerateError`, not the catch block as written. For an activation error without `response`, `data` or `data.error`, the source throws a TypeError instead of the generic message. `GenerateErrorAsWritten` models that, and `GenerateErrorVersionsAgreeForFetch` shows that the outcome of `fetchAccount` is the same either way. The `Migrate`/`Faucet` effect means that activation was attempted: it is recorded even when `revineAddressFromSeed` throws before either call is made.
- `AccountService.Degraded`: the source passes `lockedBalances: []` (an array) for the degraded snapshot; the model uses the empty dictionary.
- `AccountService.Complete`: the vested balance is the `.balance` string of the vesting account's TFT balance; the model uses its integer amount.
- The clock is the parameter `nowMs`, and logging and loading messages are not modelled. `sendWalletDataToApp` is a hard-coded bridge call and is not modelled.
- The Vuex actions (`generateAppAccount`, `generateImportedAccount`, `syncAccounts`, `changeWalletName`, `deleteAccount`) are asynchronous orchestration and persistence; they are not modelled. This includes the reference to an undefined `index` in `generateAppAccount` (src/store/modules/Accounts.js:21).
- `Accounts.AccountStore.AddAccount` and `Accounts.AccountStore.SetAccounts`: `push` and `splice` mutate the existing array object, and `setAccounts` stores the caller's array itself. The model reassigns sequence values, so another holder of the same array is not modelled.
- `Home.GetAccounts`: JavaScript's sort is stable, so accounts with equal positions keep their registry order. The contract does not state this, although the insertion sort used is stable.
- The router, dialog component, theme configuration and `seeDetails` navigation are framework glue and are not modelled.

## Findings

| source | as written | input that shows it | evidently intended | confidence | as-written member | corrected member |
|---|---|---|---|---|---|---|
| src/services/AccountService.js:247-261 | the catch block logs `e.response.data.error` before its guard `e.response && e.response.data`, and the guard calls `.includes` on `data.error`; an incomplete error throws a TypeError instead | an activation error without `response` (a network failure, a faucet error, `revineAddressFromSeed` throwing), or with `data` but no `error`; `GenerateErrorAsWrittenWithoutResponse` exhibits the first | such errors map to "Something went wrong while generating account" (the outcome of `fetchAccount` is the same, see `GenerateErrorVersionsAgreeForFetch`) | high; not executed | AccountService.GenerateErrorAsWritten | AccountService.GenerateError |
| src/store/modules/Accounts.js:97-101 | `removeImportedAccounts` keeps the accounts without the `'app'` tag, exactly as `removeAppAccounts` does | an account tagged only `['imported']` survives the call | drop the accounts tagged `'imported'` | medium; not executed | Accounts.ImportedAccountSurvives | Accounts.NonImportedAccounts |

=== FILE: account_service.dfy ===
/**
 * `fetchAccount` and its helpers: derive the keypair, load the ledger account,
 * activate it when the ledger reports `Not Found`, check for the TFT trust
 * line (asking for one and retrying when it is missing, at most four rounds),
 * then gather the escrow records and the vesting balance and assemble the
 * account snapshot.
 *
 * Every outside call is an oracle in `Env`, indexed by the retry round when
 * the call can repeat; `FetchAccount` returns the result together with the
 * calls made, in order.
 */
module AccountService {
  import opened LedgerTypes
  import opened Seqs
  import opened BalanceFilter
  import opened LockedSort
  import opened LockedAggregation

  const TooManyRetries := "too many retries"
  const NotFound := "Not Found"
  const FetchFailed := "Something went wrong while fetching account"
  const ZeroBalance := "Tfchain address has 0 balance, no need to activate an account"
  const NoContent := "GET: no content available (code: 204)"
  const GenerateFailed := "Something went wrong while generating account"
  /** The message of the TypeError a property read on `undefined` throws. */
  const UndefinedRead := "Cannot read properties of undefined"
  const TrustAsset := "TFT"
  /** `fetchAccount` gives up once `retry` exceeds this. */
  const MaxRetry := 3

  /** The error an activation call (migration or faucet) throws: without an
      HTTP `response`, with a response but no `data`, or with `data` whose
      `error` field may be missing. */
  datatype ActivationFailure = NoResponse | NoData | Data(error: Option<string>)

  /** The outside world of one `fetchAccount` call. */
  datatype Env = Env(
    production: bool,                          // config.env === 'production'
    currencies: seq<string>,                   // Object.keys(config.currencies)
    derive: (string, nat) -> KeyPair,          // entropy and keypair derivation
    load: nat -> Outcome<AccountResponse>,     // loadAccount in round r
    activate: nat -> Option<ActivationFailure>,// migrateAccount / faucet in round r (None: success)
    reload: nat -> Outcome<AccountResponse>,   // loadAccount after activation in round r
    addTrustLine: nat -> Option<string>,       // the error addTrustLine throws in round r, if any
    lockedBalances: Outcome<seq<LockedRecord>>,// getLockedBalances
    vesting: Outcome<Option<AccountResponse>>) // checkVesting

  /** The caller's arguments to `fetchAccount`, apart from `retry`. */
  datatype Request = Request(
    seedPhrase: string, index: nat, name: string, tags: seq<string>, position: int, isConverted: bool)

  /** The outside calls, in the order they are made. */
  datatype Effect =
    | Derive | LoadAccount | Migrate | Faucet | ReloadAccount | AddTrustLine
    | GetLockedBalances | StartUnlockRoutine | CheckVesting | SubscribeVesting

  datatype FetchResult = Fetched(snapshot: Snapshot) | Failed(message: string)

  datatype Run = Run(result: FetchResult, effects: seq<Effect>)

  /** Number of occurrences of `e` in `effects`. */
  function Count(effects: seq<Effect>, e: Effect): nat {
    if effects == [] then 0
    else (if effects[0] == e then 1 else 0) + Count(effects[1..], e)
  }

  lemma {:induction false} CountConcat(a: seq<Effect>, b: seq<Effect>, e: Effect)
    ensures Count(a + b, e) == Count(a, e) + Count(b, e)
  {
    if a == [] {
      assert a + b == b;
    } else {
      assert (a + b)[1..] == a[1..] + b;
      CountConcat(a[1..], b, e);
    }
  }

  /** `s.includes(part)`. */
  function Contains(s: string, part: string): bool {
    (|part| <= |s| && s[..|part|] == part) || (s != [] && Contains(s[1..], part))
  }

  // ---------------------------------------------------------------- validation

  ghost predicate HoldsTrustAsset(r: AccountResponse) {
    exists i :: 0 <= i < |r.balances| && r.balances[i].assetCode == TrustAsset
  }

  datatype Validation = Validation(valid: Outcome<bool>, trustLineRequested: bool)

  /** `validateAndFixAccountResponse`: true when the account holds a TFT balance;
      otherwise it asks for the trust line (whose call may throw) and answers false. */
  function ValidateAndFixAccountResponse(r: AccountResponse, trustLineError: Option<string>): (v: Validation)
    ensures v.valid == Ok(true) <==> HoldsTrustAsset(r)
    ensures v.trustLineRequested <==> !HoldsTrustAsset(r)
    ensures v.trustLineRequested ==>
      v.valid == if trustLineError.Some? then Err(trustLineError.value) else Ok(false)
  {
    if FindBalance(r.balances, TrustAsset).None? then
      Validation(if trustLineError.Some? then Err(trustLineError.value) else Ok(false), true)
    else
      Validation(Ok(true), false)
  }

  // ---------------------------------------------------------------- activation

  /** The error `generateAndFetchAccount` throws for a failed activation, as the
      guard `e.response && e.response.data && (...)` evidently intends. */
  function GenerateError(f: ActivationFailure): (m: string)
    ensures m == ZeroBalance <==>
      f.Data? && f.error.Some? && (f.error.value == ZeroBalance || Contains(f.error.value, NoContent))
    ensures m != ZeroBalance ==> m == GenerateFailed
  {
    match f
    case Data(Some(e)) =>
      if e == ZeroBalance || Contains(e, NoContent) then ZeroBalance else GenerateFailed
    case _ => GenerateFailed
  }

  /** The same catch block as written: the logging call reads
      `e.response.data.error` before the guard runs, and the guard calls
      `.includes` on `data.error`; both throw a TypeError when a part is missing. */
  function GenerateErrorAsWritten(f: ActivationFailure): (m: string)
    ensures m == UndefinedRead <==> !(f.Data? && f.error.Some?)
    ensures f.Data? && f.error.Some? ==> m == GenerateError(f)
  {
    match f
    case NoResponse => UndefinedRead
    case NoData => UndefinedRead
    case Data(None) => UndefinedRead
    case Data(Some(e)) =>
      if e == ZeroBalance || Contains(e, NoContent) then ZeroBalance else GenerateFailed
  }

  /** An activation error without an HTTP response (a network failure, a
      faucet error) escapes as a TypeError instead of the generic message. */
  lemma GenerateErrorAsWrittenWithoutResponse()
    ensures GenerateErrorAsWritten(NoResponse) != GenerateError(NoResponse)
    ensures GenerateErrorAsWritten(NoResponse) == UndefinedRead
  {
  }

  /** `fetchAccount` only asks whether the message is the zero-balance text, so
      both versions lead it to the same outcome. */
  lemma GenerateErrorVersionsAgreeForFetch(f: ActivationFailure)
    ensures (GenerateErrorAsWritten(f) == ZeroBalance) <==> (GenerateError(f) == ZeroBalance)
  {
  }

  datatype Generation = Generation(response: Outcome<AccountResponse>, effects: seq<Effect>)

  /** `generateAndFetchAccount` in round `r`: migrate (production) or call the
      faucet, then load the account again; a reload error propagates unchanged. */
  function GenerateAndFetchAccount(env: Env, r: nat): (g: Generation)
    ensures |g.effects| > 0 && g.effects[0] == (if env.production then Migrate else Faucet)
    ensures env.activate(r).Some? ==> g == Generation(Err(GenerateError(env.activate(r).value)), g.effects[..1])
    ensures env.activate(r).None? ==> g.response == env.reload(r) && g.effects[1..] == [ReloadAccount]
  {
    var call := if env.production then Migrate else Faucet;
    match env.activate(r)
    case Some(f) => Generation(Err(GenerateError(f)), [call])
    case None => Generation(env.reload(r), [call, ReloadAccount])
  }

  // ---------------------------------------------------------------- assembly

  /** `mapAccount`: the snapshot of a resolved (or degraded) account. */
  function MapAccount(
    currencies: seq<string>, req: Request, keyPair: KeyPair, response: AccountResponse,
    locked: seq<LockedRecord>, lockedBalances: map<string, int>, vested: int, error: bool): (s: Snapshot)
    ensures s.id == response.id && s.error == error && s.vestedBalance == vested
    ensures s.lockedBalances == lockedBalances
    ensures forall i :: 0 <= i < |s.balances| ==> s.balances[i].assetCode in currencies && s.balances[i] in response.balances
    ensures multiset(s.lockedTransactions) == multiset(locked)
    ensures AllTimed(locked) ==> AllTimed(s.lockedTransactions) && SortedByMinTime(s.lockedTransactions)
    ensures s.name == req.name && s.tags == req.tags && s.index == req.index && s.position == req.position
    ensures s.isConverted == req.isConverted && s.keyPair == keyPair && s.seedPhrase == req.seedPhrase
    // the balance filter and the escrow sort, so their lemmas apply to the snapshot itself
    ensures s.balances == FilterBalances(currencies, response.balances)
    ensures s.lockedTransactions == SortLocked(locked)
  {
    SortLockedPermutes(locked);
    FilterBalancesSound(currencies, response.balances);
    var s := Snapshot(
      req.name, req.tags, response.id, FilterBalances(currencies, response.balances),
      req.index, req.position, keyPair, req.seedPhrase, SortLocked(locked),
      lockedBalances, vested, req.isConverted, error);
    if AllTimed(locked) then SortLockedOrdered(locked); s else s
  }

  /** The snapshot `fetchAccount` returns when activation fails for a reason
      other than the zero balance: the derived public key as id, nothing else, `error` set. */
  function Degraded(env: Env, req: Request, keyPair: KeyPair): (s: Snapshot)
    ensures s.id == keyPair.publicKey && s.error
    ensures s.balances == [] && s.lockedTransactions == [] && s.lockedBalances == map[] && s.vestedBalance == 0
    // the caller's own fields are carried over
    ensures s.name == req.name && s.tags == req.tags && s.index == req.index && s.position == req.position
    ensures s.isConverted == req.isConverted && s.keyPair == keyPair && s.seedPhrase == req.seedPhrase
  {
    FilterBalancesOfNothing(env.currencies);
    MapAccount(env.currencies, req, keyPair, AccountResponse(keyPair.publicKey, []), [], map[], 0, true)
  }

  // ---------------------------------------------------------------- fetchAccount

  /** Calls that do not start or repeat a round. */
  predicate WithinRound(effects: seq<Effect>) {
    forall k :: 0 <= k < |effects| ==> effects[k] != Derive && effects[k] != AddTrustLine
  }

  lemma {:induction false} CountWithinRound(effects: seq<Effect>, e: Effect)
    requires WithinRound(effects) && (e == Derive || e == AddTrustLine)
    ensures Count(effects, e) == 0
  {
    if effects != [] {
      CountWithinRound(effects[1..], e);
    }
  }

  /** The outcome of loading (and if need be activating) the account in one round. */
  datatype Stage = Proceed(response: AccountResponse, effects: seq<Effect>) | Done(run: Run)

  /** The load step of round `retry`, after the keypair has been derived: a load
      error other than `Not Found` is fatal; `Not Found` triggers activation,
      whose zero-balance failure is re-thrown and whose other failures give the
      degraded snapshot. */
  function Resolve(env: Env, req: Request, retry: nat, keyPair: KeyPair): (st: Stage)
    ensures st.Proceed? ==> WithinRound(st.effects)
    ensures st.Done? ==> WithinRound(st.run.effects)
    ensures st.Done? && st.run.result.Fetched? ==> st.run.result.snapshot == Degraded(env, req, keyPair)
  {
    match env.load(retry)
    case Ok(response) => Proceed(response, [LoadAccount])
    case Err(m) =>
      if m != NotFound then Done(Run(Failed(FetchFailed), [LoadAccount]))
      else
        var g := GenerateAndFetchAccount(env, retry);
        var effects := [LoadAccount] + g.effects;
        match g.response
        case Ok(response) => Proceed(response, effects)
        case Err(m') =>
          if m' == ZeroBalance then Done(Run(Failed(m'), effects))
          else Done(Run(Fetched(Degraded(env, req, keyPair)), effects))
  }

  /** The closing `mapAccount` call of a synced account: the loaded account,
      the escrow records with their totals, and the vested balance. */
  function SyncedSnapshot(
    env: Env, req: Request, keyPair: KeyPair, response: AccountResponse,
    records: seq<LockedRecord>, vested: int): (s: Snapshot)
    ensures !s.error && s.id == response.id && s.vestedBalance == vested
    ensures s.lockedBalances == LockedTotals(records)
    ensures multiset(s.lockedTransactions) == multiset(records)
    ensures s.balances == FilterBalances(env.currencies, response.balances)
    // the escrow records sorted by `minTime`, and the caller's own fields carried over
    ensures s.lockedTransactions == SortLocked(records)
    ensures AllTimed(records) ==> AllTimed(s.lockedTransactions) && SortedByMinTime(s.lockedTransactions)
    ensures s.name == req.name && s.tags == req.tags && s.index == req.index && s.position == req.position
    ensures s.isConverted == req.isConverted && s.keyPair == keyPair && s.seedPhrase == req.seedPhrase
  {
    MapAccount(env.currencies, req, keyPair, response, records, LockedTotals(records), vested, false)
  }

  /** The vested balance and whether its update stream was opened. */
  datatype Vesting = Vesting(amount: int, subscribed: bool)

  /** `checkVesting` and the read of its TFT balance: 0 without a vesting
      account; otherwise the TFT amount, whose absence makes `.balance` throw. */
  function ReadVesting(vesting: Outcome<Option<AccountResponse>>): (v: Outcome<Vesting>)
    ensures vesting.Err? ==> v == Err(vesting.message)
    ensures vesting == Ok(None) ==> v == Ok(Vesting(0, false))
    ensures vesting.Ok? && vesting.value.Some? ==>
      match FindBalance(vesting.value.value.balances, TrustAsset)
      case None => v == Err(UndefinedRead)
      case Some(b) => v == Ok(Vesting(b.amount, true))
  {
    match vesting
    case Err(e) => Err(e)
    case Ok(None) => Ok(Vesting(0, false))
    case Ok(Some(account)) =>
      match FindBalance(account.balances, TrustAsset)
      // `find(...)` gives undefined and reading `.balance` of it throws
      case None => Err(UndefinedRead)
      case Some(b) => Ok(Vesting(b.amount, true))
  }

  /** The calls after validation: none starts or repeats a round. */
  lemma SyncCallsWithinRound()
    ensures WithinRound([GetLockedBalances])
    ensures WithinRound([GetLockedBalances, StartUnlockRoutine, CheckVesting])
    ensures WithinRound([GetLockedBalances, StartUnlockRoutine, CheckVesting, SubscribeVesting])
  {
  }

  /** Everything after a successful validation: escrow records, the (background)
      unlock routine, the locked totals, the vesting balance and the snapshot. */
  function Complete(env: Env, req: Request, keyPair: KeyPair, response: AccountResponse): (run: Run)
    ensures WithinRound(run.effects) && |run.effects| > 0 && run.effects[0] == GetLockedBalances
    ensures run.result.Fetched? ==>
      env.lockedBalances.Ok? && !run.result.snapshot.error &&
      run.result.snapshot.lockedBalances == LockedTotals(env.lockedBalances.value) &&
      multiset(run.result.snapshot.lockedTransactions) == multiset(env.lockedBalances.value) &&
      run.result.snapshot.id == response.id
    // an escrow fetch error ends the call at once
    ensures env.lockedBalances.Err? ==> run == Run(Failed(env.lockedBalances.message), [GetLockedBalances])
    // otherwise the unlock routine is started and the vesting account checked; the vesting
    // outcome decides the result, and the stream is opened exactly for a vesting account
    ensures env.lockedBalances.Ok? ==>
      |run.effects| >= 3 && run.effects[..3] == [GetLockedBalances, StartUnlockRoutine, CheckVesting] &&
      match ReadVesting(env.vesting)
      case Err(e) => run.result == Failed(e)
      case Ok(v) =>
        run.result.Fetched? && run.result.snapshot.vestedBalance == v.amount &&
        run.result.snapshot.balances == FilterBalances(env.currencies, response.balances) &&
        run.result.snapshot == SyncedSnapshot(env, req, keyPair, response, env.lockedBalances.value, v.amount) &&
        (SubscribeVesting in run.effects <==> v.subscribed)
  {
    SyncCallsWithinRound();
    match env.lockedBalances
    case Err(e) => Run(Failed(e), [GetLockedBalances])
    case Ok(records) =>
      var started := [GetLockedBalances, StartUnlockRoutine, CheckVesting];
      match ReadVesting(env.vesting)
      case Err(e) => Run(Failed(e), started)
      case Ok(v) =>
        var snapshot := SyncedSnapshot(env, req, keyPair, response, records, v.amount);
        if v.subscribed then Run(Fetched(snapshot), [GetLockedBalances, StartUnlockRoutine, CheckVesting, SubscribeVesting])
        else Run(Fetched(snapshot), started)
  }

  /** `fetchAccount({..., retry})`. */
  function FetchAccount(env: Env, req: Request, retry: nat): (run: Run)
    ensures retry > MaxRetry ==> run == Run(Failed(TooManyRetries), [])
    ensures retry <= MaxRetry ==> |run.effects| >= 2 && run.effects[..2] == [Derive, LoadAccount]
    decreases if retry > MaxRetry then 0 else MaxRetry + 1 - retry
  {
    if retry > MaxRetry then Run(Failed(TooManyRetries), [])
    else
      var keyPair := env.derive(req.seedPhrase, req.index);
      match Resolve(env, req, retry, keyPair)
      case Done(run) => Run(run.result, [Derive] + run.effects)
      case Proceed(response, effects) =>
        var v := ValidateAndFixAccountResponse(response, env.addTrustLine(retry));
        var checked := [Derive] + effects + (if v.trustLineRequested then [AddTrustLine] else []);
        match v.valid
        case Err(e) => Run(Failed(e), checked)
        case Ok(false) =>
          var next := FetchAccount(env, req, retry + 1);
          Run(next.result, checked + next.effects)
        case Ok(true) =>
          var rest := Complete(env, req, keyPair, response);
          Run(rest.result, checked + rest.effects)
  }

  // ---------------------------------------------------------------- properties

  /** One round's own calls: a single derivation and at most one trust-line request. */
  lemma RoundCount(effects: seq<Effect>, ask: seq<Effect>)
    requires WithinRound(effects) && (ask == [] || ask == [AddTrustLine])
    ensures Count([Derive] + effects + ask, Derive) == 1
    ensures Count([Derive] + effects + ask, AddTrustLine) == |ask|
  {
    CountConcat([Derive] + effects, ask, Derive);
    CountConcat([Derive] + effects, ask, AddTrustLine);
    CountConcat([Derive], effects, Derive);
    CountConcat([Derive], effects, AddTrustLine);
    CountWithinRound(effects, Derive);
    CountWithinRound(effects, AddTrustLine);
  }

  /** Each round derives the keypair once, so a call starting at `retry` makes
      at most `4 - retry` rounds, and asks for at most one trust line per round. */
  lemma {:induction false} RoundsBounded(env: Env, req: Request, retry: nat)
    ensures var run := FetchAccount(env, req, retry);
      Count(run.effects, AddTrustLine) <= Count(run.effects, Derive) &&
      Count(run.effects, Derive) <= if retry > MaxRetry then 0 else MaxRetry + 1 - retry
    decreases if retry > MaxRetry then 0 else MaxRetry + 1 - retry
  {
    if retry <= MaxRetry {
      var keyPair := env.derive(req.seedPhrase, req.index);
      match Resolve(env, req, retry, keyPair)
      case Done(run) =>
        RoundCount(run.effects, []);
        assert [Derive] + run.effects + [] == [Derive] + run.effects;
      case Proceed(response, effects) =>
        var v := ValidateAndFixAccountResponse(response, env.addTrustLine(retry));
        var ask := if v.trustLineRequested then [AddTrustLine] else [];
        var checked := [Derive] + effects + ask;
        RoundCount(effects, ask);
        match v.valid
        case Err(e) =>
        case Ok(false) =>
          var next := FetchAccount(env, req, retry + 1);
          RoundsBounded(env, req, retry + 1);
          CountConcat(checked, next.effects, Derive);
          CountConcat(checked, next.effects, AddTrustLine);
        case Ok(true) =>
          var rest := Complete(env, req, keyPair, response);
          CountConcat(checked, rest.effects, Derive);
          CountConcat(checked, rest.effects, AddTrustLine);
          CountWithinRound(rest.effects, Derive);
          CountWithinRound(rest.effects, AddTrustLine);
    }
  }

  /** A load error other than exactly `Not Found` fails the call at once:
      no activation, no trust line, no retry. */
  lemma LoadErrorIsFatal(env: Env, req: Request, retry: nat)
    requires retry <= MaxRetry && env.load(retry).Err? && env.load(retry).message != NotFound
    ensures FetchAccount(env, req, retry) == Run(Failed(FetchFailed), [Derive, LoadAccount])
  {
  }

  /** The zero-balance activation error reaches the caller unchanged, so it
      can switch to the manual (SMS) flow. */
  lemma ZeroBalanceIsRethrown(env: Env, req: Request, retry: nat)
    requires retry <= MaxRetry && env.load(retry) == Err(NotFound)
    requires GenerateAndFetchAccount(env, retry).response == Err(ZeroBalance)
    ensures FetchAccount(env, req, retry).result == Failed(ZeroBalance)
  {
  }

  /** Any other failure of `generateAndFetchAccount` yields the degraded
      snapshot, without validating, fetching escrow records or checking vesting. */
  lemma ActivationFailureDegrades(env: Env, req: Request, retry: nat)
    requires retry <= MaxRetry && env.load(retry) == Err(NotFound)
    requires GenerateAndFetchAccount(env, retry).response.Err?
    requires GenerateAndFetchAccount(env, retry).response.message != ZeroBalance
    ensures var run := FetchAccount(env, req, retry);
      run.result.Fetched? &&
      run.result.snapshot.id == env.derive(req.seedPhrase, req.index).publicKey &&
      run.result.snapshot.balances == [] && run.result.snapshot.lockedTransactions == [] &&
      run.result.snapshot.lockedBalances == map[] && run.result.snapshot.vestedBalance == 0 &&
      run.result.snapshot.error &&
      AddTrustLine !in run.effects && GetLockedBalances !in run.effects && CheckVesting !in run.effects
  {
  }

  /** One round on an account without the trust line: ask for it and retry. */
  lemma MissingTrustLineRound(env: Env, req: Request, retry: nat)
    requires retry <= MaxRetry && env.load(retry).Ok? && !HoldsTrustAsset(env.load(retry).value)
    requires env.addTrustLine(retry).None?
    ensures var next := FetchAccount(env, req, retry + 1);
      FetchAccount(env, req, retry) == Run(next.result, [Derive, LoadAccount, AddTrustLine] + next.effects)
  {
    var keyPair := env.derive(req.seedPhrase, req.index);
    var response := env.load(retry).value;
    assert Resolve(env, req, retry, keyPair) == Proceed(response, [LoadAccount]);
    assert [Derive] + [LoadAccount] + [AddTrustLine] == [Derive, LoadAccount, AddTrustLine];
  }

  /** One more round that asked for the trust line and led to the same failure. */
  lemma TrustLineRoundCounts(run: Run, next: Run, rounds: nat)
    requires run == Run(next.result, [Derive, LoadAccount, AddTrustLine] + next.effects)
    requires next.result == Failed(TooManyRetries)
    requires Count(next.effects, Derive) == rounds && Count(next.effects, AddTrustLine) == rounds
    ensures run.result == Failed(TooManyRetries)
    ensures Count(run.effects, Derive) == rounds + 1 && Count(run.effects, AddTrustLine) == rounds + 1
  {
    CountConcat([Derive, LoadAccount, AddTrustLine], next.effects, Derive);
    CountConcat([Derive, LoadAccount, AddTrustLine], next.effects, AddTrustLine);
  }

  /** If the ledger never shows the TFT trust line, every round asks for it and
      the call fails with "too many retries" after rounds `retry`..3. */
  lemma {:induction false} MissingTrustLineExhaustsRetries(env: Env, req: Request, retry: nat)
    requires forall r :: env.load(r).Ok? && !HoldsTrustAsset(env.load(r).value)
    requires forall r :: env.addTrustLine(r).None?
    ensures var run := FetchAccount(env, req, retry);
      var rounds := if retry > MaxRetry then 0 else MaxRetry + 1 - retry;
      run.result == Failed(TooManyRetries) &&
      Count(run.effects, Derive) == rounds && Count(run.effects, AddTrustLine) == rounds
    decreases if retry > MaxRetry then 0 else MaxRetry + 1 - retry
  {
    if retry <= MaxRetry {
      MissingTrustLineRound(env, req, retry);
      MissingTrustLineExhaustsRetries(env, req, retry + 1);
      TrustLineRoundCounts(FetchAccount(env, req, retry), FetchAccount(env, req, retry + 1), MaxRetry - retry);
    }
  }

  /** A freshly activated account that still lacks the trust line gets one
      trust-line request, then the whole call repeats with `retry + 1`. */
  lemma ActivatedWithoutTrustLineRetries(env: Env, req: Request, retry: nat)
    requires retry <= MaxRetry && env.load(retry) == Err(NotFound) && env.activate(retry).None?
    requires env.reload(retry).Ok? && !HoldsTrustAsset(env.reload(retry).value)
    requires env.addTrustLine(retry).None?
    ensures var next := FetchAccount(env, req, retry + 1);
      FetchAccount(env, req, retry) == Run(next.result,
        [Derive, LoadAccount, if env.production then Migrate else Faucet, ReloadAccount, AddTrustLine] + next.effects)
  {
    var keyPair := env.derive(req.seedPhrase, req.index);
    var g := GenerateAndFetchAccount(env, retry);
    assert g.effects == [if env.production then Migrate else Faucet, ReloadAccount];
    var response := env.reload(retry).value;
    assert Resolve(env, req, retry, keyPair) == Proceed(response, [LoadAccount] + g.effects);
    var v := ValidateAndFixAccountResponse(response, env.addTrustLine(retry));
    assert v.trustLineRequested && v.valid == Ok(false);
    assert [Derive] + ([LoadAccount] + g.effects) + [AddTrustLine] ==
      [Derive, LoadAccount, if env.production then Migrate else Faucet, ReloadAccount, AddTrustLine];
  }

  /** A snapshot of `run` is either the degraded one or carries the escrow
      records (reordered) and their per-code totals, fetched during `run`. */
  ghost predicate WellShaped(env: Env, req: Request, run: Run) {
    run.result.Fetched? ==>
      var s := run.result.snapshot;
      if s.error then
        s == Degraded(env, req, env.derive(req.seedPhrase, req.index))
      else
        env.lockedBalances.Ok? &&
        s.lockedBalances == LockedTotals(env.lockedBalances.value) &&
        multiset(s.lockedTransactions) == multiset(env.lockedBalances.value) &&
        GetLockedBalances in run.effects
  }

  /** Whatever the outcome, every snapshot `fetchAccount` returns is well shaped. */
  lemma {:induction false} SnapshotShape(env: Env, req: Request, retry: nat)
    ensures WellShaped(env, req, FetchAccount(env, req, retry))
    decreases if retry > MaxRetry then 0 else MaxRetry + 1 - retry
  {
    if retry <= MaxRetry {
      var keyPair := env.derive(req.seedPhrase, req.index);
      match Resolve(env, req, retry, keyPair)
      case Done(run) =>
      case Proceed(response, effects) =>
        var v := ValidateAndFixAccountResponse(response, env.addTrustLine(retry));
        var checked := [Derive] + effects + (if v.trustLineRequested then [AddTrustLine] else []);
        match v.valid
        case Err(e) =>
        case Ok(false) =>
          SnapshotShape(env, req, retry + 1);
          var next := FetchAccount(env, req, retry + 1);
          assert forall e :: e in next.effects ==> e in checked + next.effects;
        case Ok(true) =>
          var rest := Complete(env, req, keyPair, response);
          assert (checked + rest.effects)[|checked|] == rest.effects[0];
    }
  }

  /** An account holding 10 TFT, with no escrow records and no vesting
      account, syncs on the first round to a snapshot showing just that balance. */
  lemma PlainAccountSnapshot(env: Env, req: Request, id: string)
    requires Distinct(env.currencies) && TrustAsset in env.currencies
    requires env.load(0) == Ok(AccountResponse(id, [Balance(TrustAsset, 10)]))
    requires env.lockedBalances == Ok([]) && env.vesting == Ok(None)
    ensures var run := FetchAccount(env, req, 0);
      run.result.Fetched? &&
      run.result.snapshot.balances == [Balance(TrustAsset, 10)] &&
      run.result.snapshot.lockedBalances == map[] && run.result.snapshot.lockedTransactions == [] &&
      run.result.snapshot.vestedBalance == 0 && !run.result.snapshot.error &&
      run.effects == [Derive, LoadAccount, GetLockedBalances, StartUnlockRoutine, CheckVesting]
  {
    FilterBalancesSingle(env.currencies, Balance(TrustAsset, 10));
    NoRecordsNoTotals();
  }
}

=== FILE: accounts.dfy ===
/**
 * The account registry of the wallet store: the list of account snapshots
 * (`state.accounts`), upserted by id and filtered by identity or tag, the list
 * of names of accounts still being created (`state.accountThombstones`), and
 * the index the next app account is derived at.
 */
module Accounts {
  import opened Seqs

  const AppTag := "app"
  const ImportedTag := "imported"

  /** An account snapshot as the registry holds it. The store never rewrites
      `id` or `tags`; the home view rewrites `position`. */
  class Account {
    const id: string
    const tags: seq<string>
    var name: string
    var position: int

    constructor (id: string, tags: seq<string>, name: string, position: int)
      ensures this.id == id && this.tags == tags && this.name == name && this.position == position
    {
      this.id := id;
      this.tags := tags;
      this.name := name;
      this.position := position;
    }
  }

  /** `account.tags.includes('app')`. */
  predicate IsApp(a: Account) {
    AppTag in a.tags
  }

  predicate NotApp(a: Account) {
    !IsApp(a)
  }

  /** Not tagged `'imported'`: the test `removeImportedAccounts` evidently means to apply. */
  predicate NotImported(a: Account) {
    ImportedTag !in a.tags
  }

  predicate HasId(s: seq<Account>, id: string) {
    exists k :: 0 <= k < |s| && s[k].id == id
  }

  ghost predicate UniqueIds(s: seq<Account>) {
    forall i, j :: 0 <= i < j < |s| ==> s[i].id != s[j].id
  }

  /** `accounts.findIndex(a => a.id === id)`: the first index with that id, or -1. */
  function FindIndexById(s: seq<Account>, id: string): (i: int)
    ensures -1 <= i < |s|
    ensures i == -1 <==> !HasId(s, id)
    ensures 0 <= i ==> s[i].id == id && forall k :: 0 <= k < i ==> s[k].id != id
  {
    if s == [] then -1
    else if s[0].id == id then 0
    else
      var j := FindIndexById(s[1..], id);
      assert forall k :: 1 <= k < |s| ==> s[k] == s[1..][k - 1];
      if j == -1 then -1 else j + 1
  }

  /** The list `addAccount` leaves: `a` replaces the first entry with its id, or is appended. */
  function Upsert(s: seq<Account>, a: Account): (r: seq<Account>)
    ensures a in r && HasId(r, a.id)
    ensures |r| == if HasId(s, a.id) then |s| else |s| + 1
  {
    var i := FindIndexById(s, a.id);
    if i == -1 then s + [a]
    else
      var r := s[i := a];
      assert r[i] == a;
      r
  }

  /** `removeAccount`: every entry identical to `x` goes. */
  function WithoutAccount(s: seq<Account>, x: Account): (r: seq<Account>)
    ensures forall i :: 0 <= i < |r| ==> r[i] in s && r[i] != x
    ensures forall i :: 0 <= i < |s| && s[i] != x ==> s[i] in r
  {
    Filter(s, b => b != x)
  }

  /** The accounts tagged `'app'`. */
  function AppAccounts(s: seq<Account>): (r: seq<Account>)
    ensures forall i :: 0 <= i < |r| ==> r[i] in s && IsApp(r[i])
    ensures forall i :: 0 <= i < |s| && IsApp(s[i]) ==> s[i] in r
  {
    Filter(s, IsApp)
  }

  /** What `removeAppAccounts` (and, as written, `removeImportedAccounts`) keeps. */
  function NonAppAccounts(s: seq<Account>): (r: seq<Account>)
    ensures forall i :: 0 <= i < |r| ==> r[i] in s && !IsApp(r[i])
    ensures forall i :: 0 <= i < |s| && !IsApp(s[i]) ==> s[i] in r
  {
    Filter(s, NotApp)
  }

  /** What `removeImportedAccounts` evidently means to keep. */
  function NonImportedAccounts(s: seq<Account>): (r: seq<Account>)
    ensures forall i :: 0 <= i < |r| ==> r[i] in s && ImportedTag !in r[i].tags
    ensures forall i :: 0 <= i < |s| && ImportedTag !in s[i].tags ==> s[i] in r
  {
    Filter(s, NotImported)
  }

  /** `removeAccountThombstone`: every equal name goes. */
  function WithoutName(names: seq<string>, name: string): (r: seq<string>)
    ensures forall n :: n in r <==> n in names && n != name
  {
    Filter(names, n => n != name)
  }

  // ---------------------------------------------------------------- upsert

  /** An account with a new id is appended; every existing entry stays where it was. */
  lemma UpsertNewId(s: seq<Account>, a: Account)
    requires !HasId(s, a.id)
    ensures Upsert(s, a) == s + [a]
    ensures |Upsert(s, a)| == |s| + 1 && Upsert(s, a)[..|s|] == s
  {
  }

  /** An account whose id is present replaces the first entry with that id, in
      place; the length and every other entry are unchanged. */
  lemma UpsertKnownId(s: seq<Account>, a: Account, i: nat)
    requires i < |s| && s[i].id == a.id && forall k :: 0 <= k < i ==> s[k].id != a.id
    ensures |Upsert(s, a)| == |s| && Upsert(s, a)[i] == a
    ensures forall k :: 0 <= k < |s| && k != i ==> Upsert(s, a)[k] == s[k]
  {
    assert FindIndexById(s, a.id) == i;
  }

  /** Ids unique before an upsert stay unique after it. */
  lemma UpsertKeepsIdsUnique(s: seq<Account>, a: Account)
    requires UniqueIds(s)
    ensures UniqueIds(Upsert(s, a))
  {
    var r := Upsert(s, a);
    var i := FindIndexById(s, a.id);
    forall p, q | 0 <= p < q < |r| ensures r[p].id != r[q].id {
      if i == -1 {
        if q == |s| {
          assert r[p] == s[p];
        } else {
          assert r[p] == s[p] && r[q] == s[q];
        }
      } else if p == i {
        assert r[q] == s[q];
      } else if q == i {
        assert r[p] == s[p];
      } else {
        assert r[p] == s[p] && r[q] == s[q];
      }
    }
  }

  /** Upserting an app account with a new id moves the next app index up by one. */
  lemma UpsertNewAppAccount(s: seq<Account>, a: Account)
    requires !HasId(s, a.id) && IsApp(a)
    ensures |AppAccounts(Upsert(s, a))| == |AppAccounts(s)| + 1
  {
    FilterConcat(s, [a], IsApp);
    FilterKeepsAll([a], IsApp);
  }

  /** Every account is either tagged `'app'` or kept by `removeAppAccounts`. */
  lemma AppSplit(s: seq<Account>)
    ensures |AppAccounts(s)| + |NonAppAccounts(s)| == |s|
  {
    FilterPartition(s, IsApp, NotApp);
  }

  /** After `removeAppAccounts` no app account is left, so the next app index is 0. */
  lemma NoAppAccountsAfterRemoval(s: seq<Account>)
    ensures AppAccounts(NonAppAccounts(s)) == []
  {
    var r := NonAppAccounts(s);
    assert forall i :: 0 <= i < |r| ==> !IsApp(r[i]);
    FilterKeepsNone(r, IsApp);
  }

  /** `removeImportedAccounts` as written keeps an account tagged only
      `'imported'`; the evidently intended filter drops it. */
  lemma ImportedAccountSurvives(a: Account)
    requires a.tags == [ImportedTag]
    ensures NonAppAccounts([a]) == [a]
    ensures NonImportedAccounts([a]) == []
  {
    FilterKeepsAll([a], NotApp);
    FilterKeepsNone([a], NotImported);
  }

  // ---------------------------------------------------------------- the store

  /** `state` of the accounts store module. */
  class AccountStore {
    var accounts: seq<Account>
    var accountThombstones: seq<string>

    constructor ()
      ensures accounts == [] && accountThombstones == []
    {
      accounts := [];
      accountThombstones := [];
    }

    /** The `nextAppAcountIndex` getter: the number of app accounts. */
    function NextAppAccountIndex(): (n: nat)
      reads this
      ensures n <= |accounts| && n == |accounts| - |NonAppAccounts(accounts)|
    {
      AppSplit(accounts);
      |AppAccounts(accounts)|
    }

    /** `addAccount`. */
    method AddAccount(account: Account)
      modifies this
      ensures accounts == Upsert(old(accounts), account)
      ensures accountThombstones == old(accountThombstones)
    {
      var index := FindIndexById(accounts, account.id);
      if index == -1 {
        accounts := accounts + [account];
        return;
      }
      accounts := accounts[index := account];
    }

    /** `removeAccount`. */
    method RemoveAccount(account: Account)
      modifies this
      ensures accounts == WithoutAccount(old(accounts), account)
      ensures accountThombstones == old(accountThombstones)
    {
      accounts := Filter(accounts, item => item != account);
    }

    /** `removeAppAccounts`. */
    method RemoveAppAccounts()
      modifies this
      ensures accounts == NonAppAccounts(old(accounts))
      ensures accountThombstones == old(accountThombstones)
    {
      accounts := Filter(accounts, NotApp);
    }

    /** `removeImportedAccounts` as written: it filters on `'app'` too. */
    method RemoveImportedAccounts()
      modifies this
      ensures accounts == NonAppAccounts(old(accounts))
      ensures accountThombstones == old(accountThombstones)
    {
      accounts := Filter(accounts, NotApp);
    }

    /** `removeImportedAccounts` with the filter its name calls for. */
    method RemoveImportedAccountsCorrected()
      modifies this
      ensures accounts == NonImportedAccounts(old(accounts))
      ensures accountThombstones == old(accountThombstones)
    {
      accounts := Filter(accounts, NotImported);
    }

    /** `addAccountThombstone`. */
    method AddAccountThombstone(name: string)
      modifies this
      ensures accountThombstones == old(accountThombstones) + [name]
      ensures accounts == old(accounts)
    {
      accountThombstones := accountThombstones + [name];
    }

    /** `removeAccountThombstone`. */
    method RemoveAccountThombstone(name: string)
      modifies this
      ensures accountThombstones == WithoutName(old(accountThombstones), name)
      ensures accounts == old(accounts)
    {
      accountThombstones := Filter(accountThombstones, item => item != name);
    }

    /** `setAccounts`. */
    method SetAccounts(value: seq<Account>)
      modifies this
      ensures accounts == value
      ensures accountThombstones == old(accountThombstones)
    {
      accounts := value;
    }
  }
}

=== FILE: balance_filter.dfy ===
/**
 * The `balances` field of `mapAccount`: the configured currency codes that the
 * ledger account holds, in configuration order, each mapped to the first ledger
 * balance carrying that code (`Object.keys(config.currencies).filter(find).map(find)`).
 */
module BalanceFilter {
  import opened LedgerTypes
  import opened Seqs

  /** `b` is the first balance of `bs` whose asset code is `code`. */
  ghost predicate IsFirstMatch(bs: seq<Balance>, code: string, b: Balance) {
    b.assetCode == code &&
    exists k :: 0 <= k < |bs| && bs[k] == b && forall j :: 0 <= j < k ==> bs[j].assetCode != code
  }

  ghost predicate Holds(bs: seq<Balance>, code: string) {
    exists k :: 0 <= k < |bs| && bs[k].assetCode == code
  }

  /** `balances.find(b => b.asset_code === code)`. */
  function FindBalance(bs: seq<Balance>, code: string): (r: Option<Balance>)
    ensures r.None? <==> !Holds(bs, code)
    ensures r.Some? ==> IsFirstMatch(bs, code, r.value)
  {
    if bs == [] then None
    else if bs[0].assetCode == code then Some(bs[0])
    else
      var r := FindBalance(bs[1..], code);
      assert forall k :: 1 <= k < |bs| ==> bs[k] == bs[1..][k - 1];
      r
  }

  /** The snapshot's balances for ledger balances `bs` under configured codes `currencies`. */
  function FilterBalances(currencies: seq<string>, bs: seq<Balance>): (r: seq<Balance>)
    // at most one balance per configured code
    ensures |r| <= |currencies|
  {
    if currencies == [] then []
    else
      var rest := FilterBalances(currencies[1..], bs);
      match FindBalance(bs, currencies[0])
      case None => rest
      case Some(b) => [b] + rest
  }

  /** Every balance of `r` is a ledger balance, the first one of a configured code. */
  ghost predicate FirstMatches(currencies: seq<string>, bs: seq<Balance>, r: seq<Balance>) {
    forall i :: 0 <= i < |r| ==>
      r[i].assetCode in currencies && FindBalance(bs, r[i].assetCode) == Some(r[i]) && r[i] in bs
  }

  /** Every balance shown is the first ledger balance of a configured code. */
  lemma {:induction false} FilterBalancesSound(currencies: seq<string>, bs: seq<Balance>)
    ensures FirstMatches(currencies, bs, FilterBalances(currencies, bs))
  {
    if currencies != [] {
      FilterBalancesSound(currencies[1..], bs);
      var rest := FilterBalances(currencies[1..], bs);
      forall i | 0 <= i < |rest| ensures rest[i].assetCode in currencies {
        assert rest[i].assetCode in currencies[1..];
      }
      match FindBalance(bs, currencies[0])
      case None =>
        assert FilterBalances(currencies, bs) == rest;
      case Some(b) =>
        assert FilterBalances(currencies, bs) == [b] + rest;
        assert forall i :: 1 <= i < |[b] + rest| ==> ([b] + rest)[i] == rest[i - 1];
    }
  }

  /** Every configured code the ledger account holds is shown. */
  lemma {:induction false} FilterBalancesComplete(currencies: seq<string>, bs: seq<Balance>)
    ensures forall c :: c in currencies && Holds(bs, c) ==> FindBalance(bs, c).value in FilterBalances(currencies, bs)
  {
    if currencies != [] {
      FilterBalancesComplete(currencies[1..], bs);
      assert forall c :: c in currencies ==> c == currencies[0] || c in currencies[1..];
    }
  }

  /** Codes the ledger account does not hold never show up. */
  lemma {:induction false} FilterBalancesNoneHeld(currencies: seq<string>, bs: seq<Balance>)
    requires forall c :: c in currencies ==> !Holds(bs, c)
    ensures FilterBalances(currencies, bs) == []
  {
    if currencies != [] {
      assert currencies[0] in currencies;
      assert forall c :: c in currencies[1..] ==> c in currencies;
      FilterBalancesNoneHeld(currencies[1..], bs);
    }
  }

  /** A ledger account holding a single configured asset shows exactly that balance. */
  lemma {:induction false} FilterBalancesSingle(currencies: seq<string>, b: Balance)
    requires Distinct(currencies) && b.assetCode in currencies
    ensures FilterBalances(currencies, [b]) == [b]
  {
    var rest := FilterBalances(currencies[1..], [b]);
    if currencies[0] == b.assetCode {
      assert b.assetCode !in currencies[1..] by {
        forall k | 0 <= k < |currencies[1..]| ensures currencies[1..][k] != b.assetCode {
          assert currencies[1..][k] == currencies[k + 1];
        }
      }
      assert forall c :: c in currencies[1..] ==> !Holds([b], c);
      FilterBalancesNoneHeld(currencies[1..], [b]);
    } else {
      assert b.assetCode in currencies[1..];
      assert Distinct(currencies[1..]) by {
        forall i, j | 0 <= i < j < |currencies[1..]| ensures currencies[1..][i] != currencies[1..][j] {
          assert currencies[1..][i] == currencies[i + 1] && currencies[1..][j] == currencies[j + 1];
        }
      }
      FilterBalancesSingle(currencies[1..], b);
    }
  }

  /** The codes of `r` occur in `currencies`, and in the same order. */
  ghost predicate InConfigOrder(currencies: seq<string>, r: seq<Balance>) {
    (forall i :: 0 <= i < |r| ==> r[i].assetCode in currencies) &&
    forall i, j :: 0 <= i < j < |r| ==>
      IndexOf(currencies, r[i].assetCode) < IndexOf(currencies, r[j].assetCode)
  }

  lemma IndexOfInTail(currencies: seq<string>, c: string)
    requires Distinct(currencies) && currencies != [] && c in currencies[1..]
    ensures IndexOf(currencies, c) == IndexOf(currencies[1..], c) + 1
  {
    assert currencies[IndexOf(currencies[1..], c) + 1] == c;
  }

  /** An order that holds among the later codes still holds in the whole list. */
  lemma InConfigOrderWiden(currencies: seq<string>, r: seq<Balance>)
    requires Distinct(currencies) && currencies != []
    requires InConfigOrder(currencies[1..], r)
    ensures InConfigOrder(currencies, r)
  {
    forall i | 0 <= i < |r| ensures IndexOf(currencies, r[i].assetCode) == IndexOf(currencies[1..], r[i].assetCode) + 1 {
      IndexOfInTail(currencies, r[i].assetCode);
    }
  }

  /** Putting the first configured code in front keeps the order. */
  lemma InConfigOrderCons(currencies: seq<string>, b: Balance, r: seq<Balance>)
    requires Distinct(currencies) && currencies != [] && b.assetCode == currencies[0]
    requires InConfigOrder(currencies[1..], r)
    ensures InConfigOrder(currencies, [b] + r)
  {
    InConfigOrderWiden(currencies, r);
    var r' := [b] + r;
    assert IndexOf(currencies, b.assetCode) == 0;
    forall i | 0 <= i < |r'| ensures r'[i].assetCode in currencies && (i > 0 ==> r'[i] == r[i - 1]) {
      if i > 0 { assert r'[i] == r[i - 1]; }
    }
    forall i, j | 0 <= i < j < |r'|
      ensures IndexOf(currencies, r'[i].assetCode) < IndexOf(currencies, r'[j].assetCode)
    {
      IndexOfInTail(currencies, r[j - 1].assetCode);
    }
  }

  /** With distinct configured codes (object keys always are), the snapshot's
      balances follow configuration order, so no code appears twice. */
  lemma {:induction false} FilterBalancesInConfigOrder(currencies: seq<string>, bs: seq<Balance>)
    requires Distinct(currencies)
    ensures InConfigOrder(currencies, FilterBalances(currencies, bs))
  {
    if currencies != [] {
      var tail := currencies[1..];
      assert Distinct(tail);
      FilterBalancesInConfigOrder(tail, bs);
      var rest := FilterBalances(tail, bs);
      match FindBalance(bs, currencies[0])
      case None =>
        InConfigOrderWiden(currencies, rest);
      case Some(b) =>
        InConfigOrderCons(currencies, b, rest);
    }
  }

  /** An account with no balances shows none. */
  lemma FilterBalancesOfNothing(currencies: seq<string>)
    ensures FilterBalances(currencies, []) == []
  {
  }
}

=== FILE: home.dfy ===
/**
 * The `accounts` computed property of the home view: its getter lists the
 * registry's accounts by display position, and its setter (fed by the
 * drag-and-drop list) renumbers positions to list indices and stores the list.
 */
module Home {
  import opened Seqs
  import opened Accounts

  /** Non-decreasing by display position. */
  ghost predicate SortedByPosition(s: seq<Account>)
    reads s
  {
    forall i, j :: 0 <= i < j < |s| ==> s[i].position <= s[j].position
  }

  /** Exchanges `a[j - 1]` and `a[j]`; the multiset of entries stays the same. */
  method Swap(a: array<Account>, j: nat)
    requires 0 < j < a.Length
    modifies a
    ensures a[..] == old(a[..])[j - 1 := old(a[j])][j := old(a[j - 1])]
    ensures multiset(a[..]) == multiset(old(a[..]))
  {
    a[j - 1], a[j] := a[j], a[j - 1];
  }

  /** One pass of insertion: moves `a[i]` left past every entry with a larger position. */
  method InsertByPosition(a: array<Account>, i: nat)
    requires i < a.Length && SortedByPosition(a[..i])
    modifies a
    ensures multiset(a[..]) == multiset(old(a[..]))
    ensures SortedByPosition(a[..i + 1])
  {
    var j := i;
    while j > 0 && a[j - 1].position - a[j].position > 0
      invariant 0 <= j <= i
      invariant multiset(a[..]) == multiset(old(a[..]))
      invariant forall p, q :: 0 <= p < q <= i && q != j ==> a[p].position <= a[q].position
      invariant 0 < j < i ==> a[j - 1].position <= a[j + 1].position
    {
      Swap(a, j);
      j := j - 1;
    }
  }

  /** The getter: a copy of the registry list, sorted by
      `account.position - otherAccount.position`; the registry is left as it is. */
  method GetAccounts(store: AccountStore) returns (sorted: seq<Account>)
    ensures multiset(sorted) == multiset(store.accounts)
    ensures SortedByPosition(sorted)
  {
    var copy := store.accounts;
    var a := new Account[|copy|](i requires 0 <= i < |copy| => copy[i]);
    assert a[..] == copy;
    var i := 0;
    while i < a.Length
      invariant 0 <= i <= a.Length
      invariant multiset(a[..]) == multiset(copy)
      invariant SortedByPosition(a[..i])
    {
      InsertByPosition(a, i);
      i := i + 1;
    }
    assert a[..a.Length] == a[..];
    sorted := a[..];
  }

  /** The setter: `value.map((account, index) => { account.position = index })`,
      then the `setAccounts` commit. An account listed twice keeps the later index. */
  method SetAccounts(store: AccountStore, value: seq<Account>)
    modifies store, value
    ensures store.accounts == value && store.accountThombstones == old(store.accountThombstones)
    ensures forall i :: 0 <= i < |value| ==> value[i].position == LastIndexOf(value, value[i])
    ensures forall i :: 0 <= i < |value| ==> value[i].name == old(value[i].name)
  {
    var i := 0;
    while i < |value|
      invariant 0 <= i <= |value|
      invariant forall k :: 0 <= k < i ==> value[k].position == LastIndexOf(value[..i], value[k])
      invariant forall k :: 0 <= k < |value| ==> value[k].name == old(value[k].name)
      invariant store.accountThombstones == old(store.accountThombstones)
    {
      LastIndexOfExtend(value, i);
      value[i].position := i;
      i := i + 1;
    }
    assert value[..|value|] == value;
    store.SetAccounts(value);
  }

  /** With positions equal to indices, the entry with the largest position ends the sorted list. */
  lemma SortedEndsWithLast(value: seq<Account>, r: seq<Account>)
    requires forall i :: 0 <= i < |value| ==> value[i].position == i
    requires multiset(r) == multiset(value) && |r| == |value| && value != []
    requires SortedByPosition(r)
    ensures r[|r| - 1] == value[|value| - 1]
  {
    var n := |value|;
    assert value[n - 1] in multiset(r);
    var m :| 0 <= m < n && r[m] == value[n - 1];
    assert r[n - 1] in multiset(value);
    var j :| 0 <= j < n && value[j] == r[n - 1];
  }

  /** A list whose positions are its indices comes back from the getter in
      the same order: sorting by position is then the identity. */
  lemma {:induction false} SortedByIndexIsIdentity(value: seq<Account>, r: seq<Account>)
    requires forall i :: 0 <= i < |value| ==> value[i].position == i
    requires multiset(r) == multiset(value)
    requires SortedByPosition(r)
    ensures r == value
  {
    assert |r| == |multiset(r)| == |multiset(value)| == |value|;
    if value != [] {
      var n := |value|;
      SortedEndsWithLast(value, r);
      MultisetDropLast(r, value);
      SortedByIndexIsIdentity(value[..n - 1], r[..n - 1]);
      assert r == r[..n - 1] + [r[n - 1]];
      assert value == value[..n - 1] + [value[n - 1]];
    }
  }

  /** Dropping a list of distinct accounts into place and reading it back gives
      the same list, in the same order. */
  method SetThenGet(store: AccountStore, value: seq<Account>) returns (shown: seq<Account>)
    requires Distinct(value)
    modifies store, value
    ensures shown == value && store.accounts == value
  {
    SetAccounts(store, value);
    forall i | 0 <= i < |value| ensures value[i].position == i {
      LastIndexOfDistinct(value, i);
    }
    shown := GetAccounts(store);
    SortedByIndexIsIdentity(value, shown);
  }
}

=== FILE: ledger_types.dfy ===
/**
 * Value types shared by the account-synchronisation model: ledger balances,
 * account responses, escrow (locked-balance) records and the account snapshot
 * that `fetchAccount` hands to its callers.
 *
 * Amounts are whole numbers here; the wallet parses decimal strings with
 * `Number(...)` and adds floating-point values, which this model does not follow.
 */
module LedgerTypes {

  datatype Option<+T> = None | Some(value: T)

  /** The outcome of a call into the ledger or a crypto library: a value, or
      the `message` of the error it throws. */
  datatype Outcome<+T> = Ok(value: T) | Err(message: string)

  /** One entry of an account's `balances` list (`asset_code`, `balance`). */
  datatype Balance = Balance(assetCode: string, amount: int)

  /** What `loadAccount` (or the vesting lookup) returns: the account id and its balances. */
  datatype AccountResponse = AccountResponse(id: string, balances: seq<Balance>)

  /** The derived keypair; only its public key is observable by the core. */
  datatype KeyPair = KeyPair(publicKey: string)

  /** A resolved unlock transaction; only its `timeBounds.minTime` (in seconds) matters. */
  datatype UnlockTransaction = UnlockTransaction(minTime: int)

  /** One escrow record as returned by `getLockedBalances`. */
  datatype LockedRecord = LockedRecord(
    id: string,
    balance: Balance,
    unlockHash: Option<string>,
    unlockTransaction: Option<UnlockTransaction>)

  /** The account object assembled by `mapAccount`. */
  datatype Snapshot = Snapshot(
    name: string,
    tags: seq<string>,
    id: string,
    balances: seq<Balance>,
    index: nat,
    position: int,
    keyPair: KeyPair,
    seedPhrase: string,
    lockedTransactions: seq<LockedRecord>,
    lockedBalances: map<string, int>,
    vestedBalance: int,
    isConverted: bool,
    error: bool)
}

=== FILE: locked_aggregation.dfy ===
/**
 * The `lockedBalances` dictionary `fetchAccount` builds from the escrow
 * records: one entry per asset code, holding the total amount locked in
 * that code.
 */
module LockedAggregation {
  import opened LedgerTypes
  import opened LockedSort

  /** The asset codes occurring in the records. */
  function Codes(rs: seq<LockedRecord>): set<string> {
    set i | 0 <= i < |rs| :: rs[i].balance.assetCode
  }

  /** What record `r` adds to the total of `code`. */
  function Share(r: LockedRecord, code: string): int {
    if r.balance.assetCode == code then r.balance.amount else 0
  }

  /** The total amount of the records whose asset code is `code`. */
  function SumFor(rs: seq<LockedRecord>, code: string): int {
    if rs == [] then 0 else SumFor(rs[..|rs| - 1], code) + Share(rs[|rs| - 1], code)
  }

  /** The reference dictionary: exactly the codes present, each with its total. */
  function LockedTotals(rs: seq<LockedRecord>): map<string, int> {
    map c | c in Codes(rs) :: SumFor(rs, c)
  }

  /** A code no record carries sums to zero. */
  lemma {:induction false} SumForAbsent(rs: seq<LockedRecord>, code: string)
    requires code !in Codes(rs)
    ensures SumFor(rs, code) == 0
  {
    if rs != [] {
      var init := rs[..|rs| - 1];
      assert Codes(init) <= Codes(rs) by {
        forall c | c in Codes(init) ensures c in Codes(rs) {
          var i :| 0 <= i < |init| && init[i].balance.assetCode == c;
          assert rs[i] == init[i];
        }
      }
      SumForAbsent(init, code);
      assert rs[|rs| - 1].balance.assetCode in Codes(rs);
    }
  }

  /** Adding one record to the end updates only that record's code, by its amount. */
  lemma TotalsAppend(p: seq<LockedRecord>, r: LockedRecord)
    ensures var m, code := LockedTotals(p), r.balance.assetCode;
      LockedTotals(p + [r]) == m[code := (if code in m then m[code] else 0) + r.balance.amount]
  {
    var s := p + [r];
    var m, code := LockedTotals(p), r.balance.assetCode;
    assert s[..|s| - 1] == p;
    assert Codes(s) == Codes(p) + {code} by {
      forall c | c in Codes(s) ensures c in Codes(p) + {code} {
        var i :| 0 <= i < |s| && s[i].balance.assetCode == c;
        if i < |p| { assert p[i] == s[i]; }
      }
      forall c | c in Codes(p) ensures c in Codes(s) {
        var i :| 0 <= i < |p| && p[i].balance.assetCode == c;
        assert s[i] == p[i];
      }
      assert s[|p|] == r;
    }
    if code !in Codes(p) {
      SumForAbsent(p, code);
    }
  }

  /** `lockedTransactions.forEach(...)`: builds the dictionary in place, taking
      the `else` branch both for a new code and for a code whose running total
      is the falsy zero. */
  method AggregateLockedBalances(rs: seq<LockedRecord>) returns (m: map<string, int>)
    ensures m == LockedTotals(rs)
  {
    m := map[];
    var i := 0;
    while i < |rs|
      invariant 0 <= i <= |rs|
      invariant m == LockedTotals(rs[..i])
    {
      var b := rs[i].balance;
      TotalsAppend(rs[..i], rs[i]);
      if b.assetCode in m && m[b.assetCode] != 0 {
        m := m[b.assetCode := m[b.assetCode] + b.amount];
      } else {
        m := m[b.assetCode := b.amount];
      }
      assert rs[..i + 1] == rs[..i] + [rs[i]];
      i := i + 1;
    }
    assert rs[..i] == rs;
  }

  /** No records, no entries. */
  lemma NoRecordsNoTotals()
    ensures LockedTotals([]) == map[]
  {
  }

  lemma {:induction false} SumForInsert(s: seq<LockedRecord>, x: LockedRecord, code: string)
    ensures SumFor(Insert(s, x), code) == SumFor(s, code) + Share(x, code)
  {
    var ins := Insert(s, x);
    if s == [] || CompareLocked(s[|s| - 1], x) <= 0 {
      assert ins[..|ins| - 1] == s;
    } else {
      var init, last := s[..|s| - 1], s[|s| - 1];
      SumForInsert(init, x, code);
      assert ins[..|ins| - 1] == Insert(init, x);
    }
  }

  lemma {:induction false} SumForSorted(s: seq<LockedRecord>, code: string)
    ensures SumFor(SortLocked(s), code) == SumFor(s, code)
  {
    if s != [] {
      SumForSorted(s[..|s| - 1], code);
      SumForInsert(SortLocked(s[..|s| - 1]), s[|s| - 1], code);
    }
  }

  /** Sorting the records in place (as `mapAccount` later does to the same
      array) leaves the dictionary unchanged. */
  lemma LockedTotalsIgnoreOrder(s: seq<LockedRecord>)
    ensures LockedTotals(SortLocked(s)) == LockedTotals(s)
  {
    var t := SortLocked(s);
    SortLockedPermutes(s);
    assert Codes(t) == Codes(s) by {
      forall c | c in Codes(t) ensures c in Codes(s) {
        var i :| 0 <= i < |t| && t[i].balance.assetCode == c;
        assert t[i] in multiset(s);
      }
      forall c | c in Codes(s) ensures c in Codes(t) {
        var i :| 0 <= i < |s| && s[i].balance.assetCode == c;
        assert s[i] in multiset(t);
      }
    }
    forall c | c in Codes(s) ensures SumFor(t, c) == SumFor(s, c) {
      SumForSorted(s, c);
    }
  }
}

=== FILE: locked_sort.dfy ===
/**
 * The ordering `mapAccount` imposes on `lockedTransactions`: an in-place
 * `Array.prototype.sort` with a comparator that ranks records by the
 * `minTime` of their unlock transaction and calls any pair equal when either
 * side has no unlock transaction.
 *
 * The comparator is not a consistent order on a mix of records with and
 * without unlock transactions, so the engine's result is then
 * implementation-defined. The model fixes one stable comparison sort
 * (insertion sort, `SortLocked`) and claims of it only what any such sort
 * gives: a permutation, ordered by `minTime` whenever every record has an
 * unlock transaction.
 */
module LockedSort {
  import opened LedgerTypes

  predicate Timed(r: LockedRecord) {
    r.unlockTransaction.Some?
  }

  predicate AllTimed(s: seq<LockedRecord>) {
    forall i :: 0 <= i < |s| ==> Timed(s[i])
  }

  ghost predicate SortedByMinTime(s: seq<LockedRecord>)
    requires AllTimed(s)
  {
    forall i, j :: 0 <= i < j < |s| ==>
      s[i].unlockTransaction.value.minTime <= s[j].unlockTransaction.value.minTime
  }

  /** The comparator passed to `lockedTransactions.sort`. */
  function CompareLocked(a: LockedRecord, b: LockedRecord): (c: int)
    ensures !Timed(a) || !Timed(b) ==> c == 0
    ensures Timed(a) && Timed(b) ==>
      var x, y := a.unlockTransaction.value.minTime, b.unlockTransaction.value.minTime;
      (c < 0 <==> x < y) && (c > 0 <==> x > y) && -1 <= c <= 1
  {
    if a.unlockTransaction.None? then 0
    else if b.unlockTransaction.None? then 0
    else if a.unlockTransaction.value.minTime < b.unlockTransaction.value.minTime then -1
    else if a.unlockTransaction.value.minTime > b.unlockTransaction.value.minTime then 1
    else 0
  }

  /** Inserts `x` behind the already-sorted `s`, moving it left past every
      element the comparator ranks strictly after it. */
  function Insert(s: seq<LockedRecord>, x: LockedRecord): (r: seq<LockedRecord>)
    ensures |r| == |s| + 1 && x in r
  {
    if s == [] || CompareLocked(s[|s| - 1], x) <= 0 then s + [x]
    else Insert(s[..|s| - 1], x) + [s[|s| - 1]]
  }

  /** Insertion sort by `CompareLocked`. */
  function SortLocked(s: seq<LockedRecord>): (r: seq<LockedRecord>)
    ensures |r| == |s|
  {
    if s == [] then [] else Insert(SortLocked(s[..|s| - 1]), s[|s| - 1])
  }

  lemma {:induction false} InsertPermutes(s: seq<LockedRecord>, x: LockedRecord)
    ensures multiset(Insert(s, x)) == multiset(s) + multiset{x}
  {
    if s != [] && CompareLocked(s[|s| - 1], x) > 0 {
      InsertPermutes(s[..|s| - 1], x);
      assert s == s[..|s| - 1] + [s[|s| - 1]];
    }
  }

  /** Sorting only reorders the records. */
  lemma {:induction false} SortLockedPermutes(s: seq<LockedRecord>)
    ensures multiset(SortLocked(s)) == multiset(s)
  {
    if s != [] {
      SortLockedPermutes(s[..|s| - 1]);
      InsertPermutes(SortLocked(s[..|s| - 1]), s[|s| - 1]);
      assert s == s[..|s| - 1] + [s[|s| - 1]];
    }
  }

  lemma {:induction false} InsertKeepsSorted(s: seq<LockedRecord>, x: LockedRecord)
    requires AllTimed(s) && Timed(x) && SortedByMinTime(s)
    ensures AllTimed(Insert(s, x)) && SortedByMinTime(Insert(s, x))
  {
    if s != [] && CompareLocked(s[|s| - 1], x) > 0 {
      var init, last := s[..|s| - 1], s[|s| - 1];
      InsertKeepsSorted(init, x);
      InsertPermutes(init, x);
      var ins := Insert(init, x);
      forall k | 0 <= k < |ins|
        ensures ins[k].unlockTransaction.value.minTime <= last.unlockTransaction.value.minTime
      {
        assert ins[k] in multiset(init) + multiset{x};
        if ins[k] != x {
          assert ins[k] in init;
        }
      }
    }
  }

  /** When every record has an unlock transaction, the sorted list is
      non-decreasing by `minTime`. */
  lemma {:induction false} SortLockedOrdered(s: seq<LockedRecord>)
    requires AllTimed(s)
    ensures AllTimed(SortLocked(s)) && SortedByMinTime(SortLocked(s))
  {
    if s != [] {
      SortLockedOrdered(s[..|s| - 1]);
      InsertKeepsSorted(SortLocked(s[..|s| - 1]), s[|s| - 1]);
    }
  }

  /** Moving `x` one place left past `sorted[j - 1]`. */
  lemma InsertShift(sorted: seq<LockedRecord>, x: LockedRecord, j: nat)
    requires 0 < j <= |sorted| && CompareLocked(sorted[j - 1], x) > 0
    ensures Insert(sorted[..j], x) + sorted[j..] == Insert(sorted[..j - 1], x) + sorted[j - 1..]
  {
    assert sorted[..j][..j - 1] == sorted[..j - 1];
    assert [sorted[j - 1]] + sorted[j..] == sorted[j - 1..];
  }

  /** Where `x` stops: the prefix's last element does not rank after it. */
  lemma InsertStop(sorted: seq<LockedRecord>, x: LockedRecord, j: nat)
    requires j <= |sorted| && (j == 0 || CompareLocked(sorted[j - 1], x) <= 0)
    ensures Insert(sorted[..j], x) + sorted[j..] == sorted[..j] + [x] + sorted[j..]
  {
  }

  /** The array contents while `x` travels left: sorted prefix, `x` at index `j`, sorted suffix, untouched rest. */
  function Placed(sorted: seq<LockedRecord>, x: LockedRecord, after: seq<LockedRecord>, j: nat): seq<LockedRecord>
    requires j <= |sorted|
  {
    sorted[..j] + [x] + sorted[j..] + after
  }

  lemma PlacedSwap(sorted: seq<LockedRecord>, x: LockedRecord, after: seq<LockedRecord>, j: nat)
    requires 0 < j <= |sorted|
    ensures Placed(sorted, x, after, j)[j - 1 := x][j := sorted[j - 1]] == Placed(sorted, x, after, j - 1)
  {
    var s, t := Placed(sorted, x, after, j)[j - 1 := x][j := sorted[j - 1]], Placed(sorted, x, after, j - 1);
    assert |s| == |t|;
    forall k | 0 <= k < |s| ensures s[k] == t[k] {
      if k < j - 1 {
      } else if k == j - 1 || k == j {
      } else if k <= |sorted| {
        assert s[k] == sorted[k - 1];
      }
    }
  }

  /** The two cells around `x`'s position, and the part of the array past the prefix. */
  lemma PlacedAt(sorted: seq<LockedRecord>, x: LockedRecord, after: seq<LockedRecord>, j: nat)
    requires j <= |sorted|
    ensures Placed(sorted, x, after, j)[j] == x
    ensures 0 < j ==> Placed(sorted, x, after, j)[j - 1] == sorted[j - 1]
    ensures Placed(sorted, x, after, j)[..|sorted| + 1] == sorted[..j] + [x] + sorted[j..]
    ensures Placed(sorted, x, after, j)[|sorted| + 1..] == after
  {
    var p := Placed(sorted, x, after, j);
    assert p == (sorted[..j] + [x] + sorted[j..]) + after;
  }

  /** One pass of insertion: moves `a[i]` left into the sorted prefix `a[..i]`. */
  method InsertInPlace(a: array<LockedRecord>, i: nat)
    requires i < a.Length
    modifies a
    ensures a[..i + 1] == Insert(old(a[..i]), old(a[i]))
    ensures a[i + 1..] == old(a[i + 1..])
  {
    ghost var sorted := a[..i];
    ghost var x := a[i];
    ghost var after := a[i + 1..];
    var j := i;
    assert a[..] == Placed(sorted, x, after, j);
    assert sorted[..j] == sorted && sorted[j..] == [];
    while j > 0 && CompareLocked(a[j - 1], a[j]) > 0
      invariant 0 <= j <= i
      invariant a[..] == Placed(sorted, x, after, j)
      invariant Insert(sorted, x) == Insert(sorted[..j], x) + sorted[j..]
    {
      PlacedAt(sorted, x, after, j);
      InsertShift(sorted, x, j);
      PlacedSwap(sorted, x, after, j);
      a[j - 1], a[j] := a[j], a[j - 1];
      j := j - 1;
    }
    PlacedAt(sorted, x, after, j);
    InsertStop(sorted, x, j);
  }

  /** Sorting one more element of `s` inserts it into the sorted prefix. */
  lemma SortLockedExtend(s: seq<LockedRecord>, i: nat)
    requires i < |s|
    ensures SortLocked(s[..i + 1]) == Insert(SortLocked(s[..i]), s[i])
  {
    assert s[..i + 1][..i] == s[..i];
  }

  /** `lockedTransactions.sort(...)` on the array itself. */
  method SortLockedInPlace(a: array<LockedRecord>)
    modifies a
    ensures a[..] == SortLocked(old(a[..]))
  {
    ghost var original := a[..];
    var i := 0;
    while i < a.Length
      invariant 0 <= i <= a.Length
      invariant a[..i] == SortLocked(original[..i])
      invariant a[i..] == original[i..]
    {
      assert a[i] == a[i..][0] == original[i];
      assert a[i + 1..] == a[i..][1..] == original[i + 1..];
      InsertInPlace(a, i);
      SortLockedExtend(original, i);
      i := i + 1;
    }
    assert original[..a.Length] == original;
  }
}

=== FILE: seqs.dfy ===
/** Generic sequence helpers: the `Array.prototype.filter` the wallet uses
    everywhere, distinctness, and first-index lookup. */
module Seqs {

  /** `s.filter(keep)`: the elements of `s` that satisfy `keep`, in order. */
  function Filter<T(==)>(s: seq<T>, keep: T -> bool): (r: seq<T>)
    ensures |r| <= |s|
    ensures forall i :: 0 <= i < |r| ==> keep(r[i]) && r[i] in s
    ensures forall i :: 0 <= i < |s| && keep(s[i]) ==> s[i] in r
  {
    if s == [] then []
    else
      var rest := Filter(s[1..], keep);
      assert s == [s[0]] + s[1..];
      assert forall i :: 1 <= i < |s| ==> s[i] == s[1..][i - 1];
      if keep(s[0]) then [s[0]] + rest else rest
  }

  /** Filtering distributes over concatenation: the kept elements of `s`
      come before the kept elements of `t`, so filtering preserves order. */
  lemma {:induction false} FilterConcat<T>(s: seq<T>, t: seq<T>, keep: T -> bool)
    ensures Filter(s + t, keep) == Filter(s, keep) + Filter(t, keep)
  {
    if s == [] {
      assert s + t == t;
    } else {
      assert (s + t)[1..] == s[1..] + t;
      FilterConcat(s[1..], t, keep);
    }
  }

  /** A sequence in which every element satisfies `keep` is left as it is. */
  lemma {:induction false} FilterKeepsAll<T>(s: seq<T>, keep: T -> bool)
    requires forall i :: 0 <= i < |s| ==> keep(s[i])
    ensures Filter(s, keep) == s
  {
    if s != [] {
      FilterKeepsAll(s[1..], keep);
    }
  }

  predicate Distinct<T(==)>(s: seq<T>) {
    forall i, j :: 0 <= i < j < |s| ==> s[i] != s[j]
  }

  /** The first index of `x` in `s` (`indexOf`). */
  function IndexOf<T(==)>(s: seq<T>, x: T): (i: nat)
    requires x in s
    ensures i < |s| && s[i] == x
    ensures forall k :: 0 <= k < i ==> s[k] != x
  {
    if s[0] == x then 0 else 1 + IndexOf(s[1..], x)
  }

  /** When no element satisfies `keep`, nothing is kept. */
  lemma {:induction false} FilterKeepsNone<T>(s: seq<T>, keep: T -> bool)
    requires forall i :: 0 <= i < |s| ==> !keep(s[i])
    ensures Filter(s, keep) == []
  {
    if s != [] {
      FilterKeepsNone(s[1..], keep);
    }
  }

  /** Filtering by a test and by its negation splits the sequence in two. */
  lemma {:induction false} FilterPartition<T>(s: seq<T>, keep: T -> bool, drop: T -> bool)
    requires forall i :: 0 <= i < |s| ==> drop(s[i]) == !keep(s[i])
    ensures |Filter(s, keep)| + |Filter(s, drop)| == |s|
  {
    if s != [] {
      FilterPartition(s[1..], keep, drop);
    }
  }

  /** The last index of `x` in `s`. */
  function LastIndexOf<T(==)>(s: seq<T>, x: T): (i: nat)
    requires x in s
    ensures i < |s| && s[i] == x
    ensures forall k :: i < k < |s| ==> s[k] != x
  {
    if s[|s| - 1] == x then |s| - 1 else LastIndexOf(s[..|s| - 1], x)
  }

  /** Appending `y` makes it its own last occurrence and moves no other. */
  lemma LastIndexOfSnoc<T>(s: seq<T>, y: T, x: T)
    requires x in s + [y]
    ensures LastIndexOf(s + [y], x) == if x == y then |s| else LastIndexOf(s, x)
  {
    assert (s + [y])[..|s|] == s;
  }

  /** Extending the prefix `s[..i]` by `s[i]` moves only the last occurrence of `s[i]`. */
  lemma LastIndexOfExtend<T>(s: seq<T>, i: nat)
    requires i < |s|
    ensures forall k :: 0 <= k <= i ==>
      LastIndexOf(s[..i + 1], s[k]) == if s[k] == s[i] then i else LastIndexOf(s[..i], s[k])
  {
    assert s[..i + 1] == s[..i] + [s[i]];
    forall k | 0 <= k <= i
      ensures LastIndexOf(s[..i + 1], s[k]) == if s[k] == s[i] then i else LastIndexOf(s[..i], s[k])
    {
      assert s[k] in s[..i + 1];
      LastIndexOfSnoc(s[..i], s[i], s[k]);
    }
  }

  /** In a sequence without repetitions, the element at `i` occurs last at `i`. */
  lemma LastIndexOfDistinct<T>(s: seq<T>, i: nat)
    requires Distinct(s) && i < |s|
    ensures LastIndexOf(s, s[i]) == i
  {
  }

  /** Two permutations of each other that end alike stay permutations without their ends. */
  lemma MultisetDropLast<T>(s: seq<T>, t: seq<T>)
    requires multiset(s) == multiset(t) && s != [] && t != [] && s[|s| - 1] == t[|t| - 1]
    ensures multiset(s[..|s| - 1]) == multiset(t[..|t| - 1])
  {
    assert s == s[..|s| - 1] + [s[|s| - 1]];
    assert t == t[..|t| - 1] + [t[|t| - 1]];
    assert multiset(s) == multiset(s[..|s| - 1]) + multiset{s[|s| - 1]};
    assert multiset(t) == multiset(t[..|t| - 1]) + multiset{t[|t| - 1]};
    var ms, mt := multiset(s[..|s| - 1]), multiset(t[..|t| - 1]);
    forall y ensures ms[y] == mt[y] {
      assert multiset(s)[y] == multiset(t)[y];
    }
  }
}

=== FILE: unlock_routine.dfy ===
/**
 * `lockedTokenSubRoutine`: the background pass over the escrow records.
 * For each record, in array order: a record with an unlock hash gets its
 * unlock transaction fetched; once that transaction's `minTime` lies strictly
 * before now it is submitted and the record's `unlockHash` and
 * `unlockTransaction` are cleared; a record without an unlock hash (from the
 * start, or cleared just now) gets a direct transfer of its locked amount.
 *
 * The ledger calls are oracles: `fetchUnlock` (None when the fetch throws),
 * `submit` (false when `submitTransaction` throws) and `transfer` (false when
 * `transferLockedTokens` throws). The clock reading is the parameter `nowMs`.
 */
module UnlockRoutine {
  import opened LedgerTypes

  datatype Services = Services(
    fetchUnlock: string -> Option<UnlockTransaction>,
    submit: UnlockTransaction -> bool,
    transfer: LockedRecord -> bool)

  datatype TransferAttempt = NoTransfer | Transferred | TransferFailed

  /** What the loop body does to one record: the record afterwards, whether it
      submitted the unlock, the transfer it attempted, and whether an uncaught
      submit failure ended the whole routine. */
  datatype Step = Step(record: LockedRecord, submitted: bool, transfer: TransferAttempt, halted: bool)

  /** `if (unlockHash)`: JavaScript truthiness, so an empty hash counts as absent. */
  predicate HasUnlockHash(r: LockedRecord) {
    r.unlockHash.Some? && r.unlockHash.value != ""
  }

  /** `moment.unix(minTime).isBefore()`: the bound, in seconds, lies strictly before now (in milliseconds). */
  predicate Due(tx: UnlockTransaction, nowMs: int) {
    tx.minTime * 1000 < nowMs
  }

  /** The fetch of `r`'s unlock transaction fails. */
  predicate FetchFails(r: LockedRecord, svc: Services)
    requires HasUnlockHash(r)
  {
    svc.fetchUnlock(r.unlockHash.value).None?
  }

  /** The loop body for one record. */
  function ProcessRecord(r: LockedRecord, svc: Services, nowMs: int): (s: Step)
    // a record whose fetch fails is left exactly as it was
    ensures HasUnlockHash(r) && FetchFails(r, svc) ==> s.record == r
    // a record whose fetch fails, or whose bound is not yet past, keeps its hash and gets no transfer
    ensures HasUnlockHash(r) && (FetchFails(r, svc) || !Due(svc.fetchUnlock(r.unlockHash.value).value, nowMs)) ==>
      s.record.unlockHash == r.unlockHash && s.transfer == NoTransfer && !s.submitted && !s.halted
    // a submitted record has both fields cleared and then gets a transfer attempt
    ensures s.submitted ==>
      HasUnlockHash(r) && s.record.unlockHash.None? && s.record.unlockTransaction.None? && s.transfer != NoTransfer
    // a record without an unlock hash is left as it is and gets a transfer attempt
    ensures !HasUnlockHash(r) ==> s.record == r && s.transfer != NoTransfer && !s.submitted && !s.halted
    // only a failed submit halts, and then no transfer was tried
    ensures s.halted ==> HasUnlockHash(r) && !s.submitted && s.transfer == NoTransfer && s.record.unlockHash == r.unlockHash
    // a transfer failure never halts the routine
    ensures s.transfer == TransferFailed ==> !s.halted
    ensures s.record.id == r.id && s.record.balance == r.balance
    // a due record is submitted exactly when the ledger accepts it, and halts the routine exactly when it does not
    ensures s.submitted <==>
      HasUnlockHash(r) && !FetchFails(r, svc) && Due(svc.fetchUnlock(r.unlockHash.value).value, nowMs) &&
      svc.submit(svc.fetchUnlock(r.unlockHash.value).value)
    ensures s.halted <==>
      HasUnlockHash(r) && !FetchFails(r, svc) && Due(svc.fetchUnlock(r.unlockHash.value).value, nowMs) &&
      !svc.submit(svc.fetchUnlock(r.unlockHash.value).value)
    // a fetched transaction stays on a record that was not submitted
    ensures HasUnlockHash(r) && !FetchFails(r, svc) && !s.submitted ==>
      s.record.unlockTransaction == svc.fetchUnlock(r.unlockHash.value)
    // an attempted transfer reports what the ledger did with the record as it then stands
    ensures s.transfer != NoTransfer ==> (s.transfer == Transferred <==> svc.transfer(s.record))
  {
    if HasUnlockHash(r) then
      match svc.fetchUnlock(r.unlockHash.value)
      case None => Step(r, false, NoTransfer, false)
      case Some(tx) =>
        var fetched := r.(unlockTransaction := Some(tx));
        if !Due(tx, nowMs) then Step(fetched, false, NoTransfer, false)
        else if !svc.submit(tx) then Step(fetched, false, NoTransfer, true)
        else
          var cleared := fetched.(unlockHash := None, unlockTransaction := None);
          Step(cleared, true, if svc.transfer(cleared) then Transferred else TransferFailed, false)
    else
      Step(r, false, if svc.transfer(r) then Transferred else TransferFailed, false)
  }

  /** The index of the first record whose submit fails, or `|rs|` when none does. */
  function FirstHalt(rs: seq<LockedRecord>, svc: Services, nowMs: int): (h: nat)
    ensures h <= |rs|
    ensures forall k :: 0 <= k < h ==> !ProcessRecord(rs[k], svc, nowMs).halted
    ensures h < |rs| ==> ProcessRecord(rs[h], svc, nowMs).halted
  {
    if rs == [] then 0
    else if ProcessRecord(rs[0], svc, nowMs).halted then 0
    else 1 + FirstHalt(rs[1..], svc, nowMs)
  }

  /** The loop body on `records[i]`, in place: it writes the fetched unlock
      transaction into the record, then clears the record once its unlock is
      submitted, and reports the step; nothing else in the array changes. */
  method ProcessInPlace(records: array<LockedRecord>, i: nat, svc: Services, nowMs: int) returns (step: Step)
    requires i < records.Length
    modifies records
    ensures step == ProcessRecord(old(records[i]), svc, nowMs) && records[i] == step.record
    ensures forall k :: 0 <= k < records.Length && k != i ==> records[k] == old(records[k])
  {
    var record := records[i];
    var submitted := false;
    if HasUnlockHash(record) {
      var fetched := svc.fetchUnlock(record.unlockHash.value);
      if fetched.None? {
        // fetch failed: log and skip the record
        return Step(record, false, NoTransfer, false);
      }
      record := record.(unlockTransaction := fetched);
      records[i] := record;
      if !Due(fetched.value, nowMs) {
        return Step(record, false, NoTransfer, false);
      }
      if !svc.submit(fetched.value) {
        // the rejection is not caught: the routine ends here
        return Step(record, false, NoTransfer, true);
      }
      record := record.(unlockHash := None, unlockTransaction := None);
      records[i] := record;
      submitted := true;
    }
    var transfer := NoTransfer;
    if !HasUnlockHash(record) {
      transfer := if svc.transfer(record) then Transferred else TransferFailed;
    }
    step := Step(record, submitted, transfer, false);
  }

  /** The routine over the records array, updating each record in place.
      `steps[k]` is what happened to record `k`; the records after a halting
      one are never visited. */
  method LockedTokenSubRoutine(records: array<LockedRecord>, svc: Services, nowMs: int)
    returns (steps: seq<Step>, halted: bool)
    modifies records
    ensures var h := FirstHalt(old(records[..]), svc, nowMs);
      halted == (h < records.Length) &&
      |steps| == (if halted then h + 1 else records.Length)
    ensures forall k :: 0 <= k < |steps| ==>
      steps[k] == ProcessRecord(old(records[k]), svc, nowMs) && records[k] == steps[k].record
    ensures forall k :: |steps| <= k < records.Length ==> records[k] == old(records[k])
  {
    ghost var original := records[..];
    steps, halted := [], false;
    var i := 0;
    while i < records.Length
      invariant 0 <= i <= records.Length
      invariant |steps| == i
      invariant forall k :: 0 <= k < i ==> !ProcessRecord(original[k], svc, nowMs).halted
      invariant forall k :: 0 <= k < i ==>
        steps[k] == ProcessRecord(original[k], svc, nowMs) && records[k] == steps[k].record
      invariant forall k :: i <= k < records.Length ==> records[k] == original[k]
    {
      var step := ProcessInPlace(records, i, svc, nowMs);
      steps := steps + [step];
      if step.halted {
        halted := true;
        FirstHaltAt(original, svc, nowMs, i);
        return;
      }
      i := i + 1;
    }
    FirstHaltAt(original, svc, nowMs, records.Length);
  }

  /** `FirstHalt` is the first index at which a record halts. */
  lemma {:induction false} FirstHaltAt(rs: seq<LockedRecord>, svc: Services, nowMs: int, h: nat)
    requires h <= |rs|
    requires forall k :: 0 <= k < h ==> !ProcessRecord(rs[k], svc, nowMs).halted
    requires h < |rs| ==> ProcessRecord(rs[h], svc, nowMs).halted
    ensures FirstHalt(rs, svc, nowMs) == h
  {
    if rs != [] && h > 0 {
      FirstHaltAt(rs[1..], svc, nowMs, h - 1);
    }
  }

  /** A second pass over a record whose unlock was submitted submits nothing
      again: the record is left as it is and only the direct transfer is retried. */
  lemma SecondPassNeverResubmits(r: LockedRecord, svc: Services, nowMs: int, laterMs: int)
    requires ProcessRecord(r, svc, nowMs).submitted
    ensures var r' := ProcessRecord(r, svc, nowMs).record;
      var s := ProcessRecord(r', svc, laterMs);
      !s.submitted && s.record == r' && s.transfer != NoTransfer
  {
  }
}
